=== FILE: README.md ===
# TikTok channel tools: a Dafny model

This project models the deterministic core of four Python scripts:

- **Channel validator** (`tiktok_channel_validator.py`). One attempt loads a channel's profile page and classifies it:
  - step 1 is the error container, and it gives `INVALID_RULE` when its lower-cased text contains "couldn't find this account";
  - otherwise step 2 looks for the user title: `VALID_RULE` if found, `NONE` on a timeout, `ERROR` on any other exception.
- **Retry loop.** It repeats attempts until one is definitive or `max_attempts` is spent, with a 3-second sleep between attempts.
- **Batch run** (`validate_csv_channels`).
  - It reuses prior statuses from the output file.
  - It validates the remaining channels and records each result on the first row with that username.
  - It writes the rows stably sorted: valid, then undefined, then invalid.
- **Archived quick validator** (`archive/quick_channel_validator.py`).
  - It has the same attempt and retry loop, but reports the raw status strings.
  - It derives a username and a profile URL from each command-line channel.
  - It splits the results by `is_valid`.
- **Channel finder** (`tiktok_channel_finder.py`).
  - Extraction: `@username` matches are pulled from a text and deduplicated.
  - Loading: the channel table is read and keyed by lower-cased username.
  - Saving: found usernames are merged into that table. A known channel has its keywords, country and `last_updated` updated in place. An unknown one becomes a new record.
- **Video processor** (`video_processor.py`): `sanitize_filename` and the line filter of `load_links_from_file`.

The browser, the clock and the file system are not modelled.
- **Attempts.** What an attempt observes is a `Probe` value: a driver that failed to start, or a session with three observations. Those are the page load, the step-1 wait and the step-2 wait, each `Found(text)`, `Timeout` or `Fault`.
- **The retry loop** reads these from an oracle `world: nat -> Probe`. Sleeps, pauses and started or quit drivers are counted, not performed.
- **Files** are given as values: `Option<seq<Row>>` for a CSV file that may be missing, with `Row = map<string, string>`. Likewise `Option<seq<string>>` for the lines of the links file.
- **Timestamps and the search-run id** are parameters.

Layout (one module per file):
- `wrappers.dfy`: `Option` and `Result`.
- `text.dfy`: the Python string operations used: `lower`, `strip`, `in`, `split`, the removal of a character class (`re.sub` with a class, `replace` of one character), `str(int)` and its reading back.
- `records.dfy`: CSV rows.
- `classifier.dfy`: one attempt.
- `retry.dfy`: the retry loop shared by both validators.
- `status_sort.dfy`: the sorted report.
- `csv_validator.dfy`: the batch run.
- `quick_validator.dfy`: the archived validator.
- `channel_finder.dfy`: the channel finder.
- `video_processor.dfy`: the video-processor functions.

Where the code and the intended behaviour described for it differ, the model follows the code:
- **Driver start failure.** Creating the browser driver happens before the attempt's `try` (`tiktok_channel_validator.py:31`). A failure to start it is therefore not turned into an `ERROR` result. It escapes the attempt, the retry loop and the batch. The model returns it as a `Failure`.
- **Output rows.** The output of `validate_csv_channels` holds the rows of the current input only. Prior results for channels that are no longer in the input are dropped.
- **Prior-result keys.** Prior results are keyed by the exact-case username. The finder's table, by contrast, is keyed by the lower-cased username.
- **Retries.** `NONE` and `ERROR` attempts are retried alike.

## Model

| member | source | states |
|---|---|---|
| AttemptClassifier.Classify | tiktok_channel_validator.py:33-91 | INVALID exactly when the page loaded and the error container was found with the phrase in its lower-cased text (whatever step 2 shows), with message `Account not found: '<text>'`; VALID exactly when step 1 timed out or found other text and the title was found, with message `Username title found: '<title>'`; NONE exactly when step 1 fell through and the title timed out; ERROR exactly for a load fault, a step-1 fault, or a fault in a reached step 2; `is_valid` is True/False exactly for VALID/INVALID |
| AttemptClassifier.SingleAttempt | tiktok_channel_validator.py:28-34 | the attempt fails (raises) exactly when starting the driver failed, with that reason; otherwise it classifies the observations |
| AttemptClassifier.NotFoundWinsOverTitle | tiktok_channel_validator.py:36-52 | a not-found error container gives INVALID even when the title is present too |
| AttemptClassifier.PhraseMatchIsCaseInsensitive | tiktok_channel_validator.py:45-46 | the phrase is detected in any text that contains it in any mix of letter case |
| RetryController.FirstEnding | tiktok_channel_validator.py:102-108 | the index of the first of the first `n` attempts that ends the loop: it ends it, no earlier one does, and it is absent exactly when none does |
| RetryController.AttemptsMade | tiktok_channel_validator.py:102-131 | at most `max_attempts` attempts; every attempt before the last made was NONE or ERROR; fewer than `max_attempts` only when the last attempt made ended the loop |
| RetryController.Ending | tiktok_channel_validator.py:102-141 | exhausted exactly when no attempt within the budget ends the loop; otherwise the last attempt made ends it, the loop crashes exactly when that attempt's driver failed to start (with its reason), and a decided result is definitive and carries that attempt's time |
| RetryController.RunAttempts | tiktok_channel_validator.py:102-131 | attempts made are at most `max_attempts` (none when it is not positive) and equal the 1-based index of the first ending attempt, else `max_attempts`; all earlier attempts were NONE or ERROR; a decided end is VALID or INVALID; sleeps are attempts − 1; every started driver is quit |
| RetryController.CsvStatus | tiktok_channel_validator.py:111-121 | "✅ VALID" maps to "valid", "❌ INVALID" to "invalid", anything else to "undefined" |
| RetryController.ExhaustedMessage | tiktok_channel_validator.py:138 | the message is "No definitive result after ", a numeral, " attempts", and the numeral reads back as `max_attempts` |
| RetryController.ExhaustedMessageNamesBudget | tiktok_channel_validator.py:138 | different budgets give different exhaustion messages |
| RetryController.ValidateChannel | tiktok_channel_validator.py:97-141 | the result is the deciding attempt's mapped status, message, `is_valid` and time, or "undefined" with `is_valid` None, time 0 and the message naming `max_attempts` after exhaustion, or a failure, carrying the driver's exception, exactly when a driver did not start; status "valid"/"invalid"/"undefined" corresponds to `is_valid` True/False/None; sleeps are attempts − 1 |
| RetryController.QuickValidateChannel | archive/quick_channel_validator.py:93-130 | as `ValidateChannel`, but with the raw statuses "✅ VALID" / "❌ INVALID" and "❓ UNDEFINED" after exhaustion |
| RetryController.FirstDefinitiveStops | tiktok_channel_validator.py:102-125 | when attempt `k` is the first to end the loop, exactly `k + 1` attempts are made, whatever later attempts would show |
| RetryController.IndefiniteAttemptsExhaust | tiktok_channel_validator.py:127-141 | when every attempt is NONE or ERROR, exactly `max_attempts` attempts are made and the loop ends exhausted |
| StatusReport.Rank | tiktok_channel_validator.py:178-183 | the rank of a row is 1, 2 or 3 |
| StatusReport.RankMeaning | tiktok_channel_validator.py:178-183 | rank 1 exactly for status "valid"; rank 2 for "undefined" or a missing status key; rank 3 for any other value, "" included |
| StatusReport.SortIsGroupedByKey | tiktok_channel_validator.py:181-183 | the insertion sort's output is the rank-1 rows, then the rank-2 rows, then the rank-3 rows, each group in input order |
| StatusReport.GroupsArePermutation | tiktok_channel_validator.py:181-183 | the three groups together are a permutation of the input |
| StatusReport.SortByKeyCorrect | tiktok_channel_validator.py:181-183 | the sort output is ordered by key, is a permutation of the input, has its length, and keeps the input order within each key (stability) |
| StatusReport.SortByStatus | tiktok_channel_validator.py:181-183 | the sorted rows are ordered by rank, are a permutation of the rows, and keep the input order among equal ranks |
| StatusReport.WriteSortedCsv | tiktok_channel_validator.py:174-194 | nothing is written exactly for an empty row list; otherwise the written rows are ordered by rank, are a permutation of the input, and keep the input order among rows of equal rank (a stable sort) |
| Records.Get | tiktok_channel_finder.py:112 | `row.get(key, default)`: the cell when the key is present, the default otherwise |
| CsvValidator.LastResult | tiktok_channel_validator.py:160-171 | a found prior result has a non-empty status and the exact username |
| CsvValidator.LastResultMeaning | tiktok_channel_validator.py:167-169 | no prior result exactly when no row has that username with a non-empty status; otherwise the result is such a row and no later row is one |
| CsvValidator.ReadExistingResults | tiktok_channel_validator.py:160-171 | the keys of `processed` are exactly the usernames with a prior result (none for a missing file), each mapped to its last such row |
| CsvValidator.NotYetProcessed | tiktok_channel_validator.py:217-236 | the queued channels are input rows, at most as many, and none has a prior result |
| CsvValidator.NotYetProcessedStep | tiktok_channel_validator.py:221-236 | one more input row is queued exactly when it has no prior result |
| CsvValidator.WithPriorStatus | tiktok_channel_validator.py:225-236 | a report row keeps the channel's username |
| CsvValidator.SplitByPriorResult | tiktok_channel_validator.py:217-236 | the queue is the input rows without a prior result, in order; the report rows have the input's length and order, each the input row with its prior status set when it has one and unchanged otherwise |
| CsvValidator.SkipNext | tiktok_channel_validator.py:221-236 | one iteration of the skip loop keeps both loop invariants of `SplitByPriorResult` |
| CsvValidator.FirstIndex | tiktok_channel_validator.py:257-260 | the index of the first row with the username, or the length when there is none |
| CsvValidator.FirstIndexByUsernames | tiktok_channel_validator.py:257-260 | the first index depends only on the usernames of the rows |
| CsvValidator.RecordStatus | tiktok_channel_validator.py:256-260 | only the first row with the username gets the new status; every other row is unchanged |
| CsvValidator.LastIndex | tiktok_channel_validator.py:248-260 | the position of the last validation of a username, or none |
| CsvValidator.RecordStep | tiktok_channel_validator.py:248-260 | after one more recorded result, every report row is the first row of each validated username carrying that username's latest status, all else unchanged; the usernames never change |
| CsvValidator.RecordedFromInput | tiktok_channel_validator.py:221-260 | a report row is the input row with its prior status when it has one, otherwise the input row with its recorded status |
| CsvValidator.ValidateQueue | tiktok_channel_validator.py:248-264 | channels are validated in queue order, each status being the mapped status of its retry loop ("undefined" when exhausted); no validated channel's loop crashed, and the run completes exactly when no queued channel's loop crashes, otherwise it fails at the first such channel with that channel's driver exception; pauses are validated − 1 on completion; every report row is as recorded |
| CsvValidator.StatusAfter | tiktok_channel_validator.py:111-141 | the status recorded for a channel is "valid", "invalid" or "undefined" |
| CsvValidator.QueueNext | tiktok_channel_validator.py:248-264 | one iteration fails, with the driver's exception, exactly when starting a driver failed; otherwise it keeps the invariants of `ValidateQueue` for one more channel |
| CsvValidator.QueuedHaveNoPrior | tiktok_channel_validator.py:225-236 | no queued username has a prior result |
| CsvValidator.ValidateCsvChannels | tiktok_channel_validator.py:199-304 | an empty input writes nothing and validates nothing; a channel with a prior status is never validated again; each validated channel's status is the mapped status of its retry loop, and none of those loops crashed; pauses are validated − 1; a failure carries the exception of the driver that did not start for the next queued channel, the channels validated before it being the leading part of the queue of channels without prior results; otherwise the queue is exactly the channels without prior results and the written rows are the sorted report, each row its input row with the prior status or its recorded status |
| QuickValidator.DeriveTarget | archive/quick_channel_validator.py:146-153 | a channel starting with "http" is kept as the URL (with username "unknown" when it has no '@'); any other channel's URL is the profile URL of its username; the username never holds '@' |
| QuickValidator.DeriveFromUrl | archive/quick_channel_validator.py:146-150 | a URL with an '@' is kept as the URL, and the username is the text after its last '@' up to the first '?', holding neither '@' nor '?' |
| QuickValidator.LastPieceFacts | archive/quick_channel_validator.py:149 | the last piece of `split(sep)` is the text after the last separator |
| QuickValidator.FirstPieceFacts | archive/quick_channel_validator.py:149 | the first piece of `split(sep)` is the text before the first separator |
| QuickValidator.DeriveFromUrlWithoutAt | archive/quick_channel_validator.py:146-150 | a URL without '@' is validated under the username "unknown" |
| QuickValidator.DeriveFromName | archive/quick_channel_validator.py:151-153 | a plain name loses its '@' characters and only those: the username has no '@', is a subsequence of the name, and holds every other character as often as the name does; the URL is the profile URL of the username |
| QuickValidator.UrlRoundTrip | archive/quick_channel_validator.py:146-153 | a name without '@' or '?' that does not start with "http" gives the same username and URL when passed as its own profile URL |
| QuickValidator.ProfileUrlPieces | archive/quick_channel_validator.py:149-153 | a profile URL splits at '@' into the site and the name |
| QuickValidator.NameStartingWithHttp | archive/quick_channel_validator.py:146-150 | the bare name "httpkid" is taken for a URL and validated as "unknown" |
| QuickValidator.ValidateOne | archive/quick_channel_validator.py:145-155 | one channel's result carries the derived username and URL and the deciding attempt's status, `is_valid`, message and time, or UNDEFINED with None, the message naming `max_attempts` and time 0; it fails exactly when a driver did not start, with that driver's exception |
| QuickValidator.ValidateChannels | archive/quick_channel_validator.py:133-160 | the run succeeds exactly when no driver start fails; it then has one result per channel, in order, each reporting that channel (status, `is_valid`, message and time); pauses are channels − 1; a failure carries the exception of the first channel whose driver did not start |
| QuickValidator.ValidateNext | archive/quick_channel_validator.py:142-160 | one iteration appends the channel's result, or fails, with the driver's exception, exactly when a driver did not start |
| QuickValidator.WithValidity | archive/quick_channel_validator.py:168-170 | each summary list holds only results with its `is_valid` value |
| QuickValidator.SummaryPartition | archive/quick_channel_validator.py:168-170 | the valid, invalid and undefined lists together hold each result exactly once |
| QuickValidator.PartitionCons | archive/quick_channel_validator.py:168-170 | one more result joins exactly one of the three lists |
| QuickValidator.SummaryCounts | archive/quick_channel_validator.py:168-170 | the three list lengths add up to the number of results |
| ChannelFinder.RunLength | tiktok_channel_finder.py:80 | the longest run of `[a-zA-Z0-9._]` characters from a position: all allowed, and ended by the text's end or a disallowed character |
| ChannelFinder.Scan | tiktok_channel_finder.py:80 | every match is a non-empty run of allowed characters |
| ChannelFinder.FindAll | tiktok_channel_finder.py:80 | the matches are exactly those of the reference reading `EveryMatch`, each a non-empty run of allowed characters |
| ChannelFinder.ScanIsEveryMatch | tiktok_channel_finder.py:80 | the left-to-right scan finds exactly the maximal run after every '@' followed by an allowed character, in order, with no overlap |
| ChannelFinder.FindAllExample | tiktok_channel_finder.py:80 | "@a@b" gives ["a", "b"], and "@!x" gives no match |
| ChannelFinder.Dedup | tiktok_channel_finder.py:82-90 | the result has no duplicates, has the same members as the input, and is no longer |
| ChannelFinder.DedupKeepsFirstOccurrenceOrder | tiktok_channel_finder.py:82-90 | the kept names appear in the order of their first occurrences |
| ChannelFinder.ExtractUsernames | tiktok_channel_finder.py:77-90 | the result is the deduplicated matches of the pattern |
| ChannelFinder.KeepFirstOccurrences | tiktok_channel_finder.py:82-90 | the loop with a `seen` set keeps the first occurrence of each name, in order (`Dedup`) |
| ChannelFinder.ExtractedUsernames | tiktok_channel_finder.py:77-90 | extracted names are distinct, non-empty runs of allowed characters; every match is among them; they are in first-occurrence order |
| ChannelFinder.CombineKeywords | tiktok_channel_finder.py:111-116 | with both non-empty, "existing, new"; with existing empty, new; with new empty, existing |
| ChannelFinder.CombineCountry | tiktok_channel_finder.py:118-123 | the result contains the new country; a country not yet in a non-empty field is appended after ", "; a non-empty country already contained replaces the whole field; an empty one leaves it |
| ChannelFinder.CountryRepeatCollapses | tiktok_channel_finder.py:119-123 | updating twice with the same country leaves that country alone in the field |
| ChannelFinder.UpdateFields | tiktok_channel_finder.py:109-130 | the row gains at most the keywords, country and last_updated columns, only those change, and they hold the combined keywords, combined country and the time |
| ChannelFinder.UpdateChannelData | tiktok_channel_finder.py:109-130 | the row is updated in place to `UpdateFields` of its old fields, and the same row is returned |
| ChannelFinder.UpdateKeepsUsername | tiktok_channel_finder.py:125-130 | an update keeps the username |
| ChannelFinder.RepeatedKeepsUsername | tiktok_channel_finder.py:125-130 | any number of updates, whatever their timestamps, keep the username |
| ChannelFinder.UpdatedUntouched | tiktok_channel_finder.py:153-159 | a row whose key no found username has is left unchanged |
| ChannelFinder.UpdatedStamp | tiktok_channel_finder.py:128 | a row's `last_updated` is the time read by the update for the last found username with its key |
| ChannelFinder.LoadedPrefix | tiktok_channel_finder.py:97-104 | reading stops before the first row without a username column (the raised error is caught); the rows read are a prefix of the file, all with usernames |
| ChannelFinder.LastByKey | tiktok_channel_finder.py:101-102 | the last row with a lower-cased username, present exactly when some row has it |
| ChannelFinder.LastByKeyMeaning | tiktok_channel_finder.py:101-102 | a found row is a row with the key and no later row has that key, so the last assignment wins |
| ChannelFinder.LoadRows | tiktok_channel_finder.py:101-102 | the table's keys and its key order hold the same names, and each row is stored under its own lower-cased username |
| ChannelFinder.AddRow | tiktok_channel_finder.py:102 | storing a row puts it under its key and leaves every other key as it was |
| ChannelFinder.LoadRowsKeys | tiktok_channel_finder.py:95-102 | the table keys are the distinct lower-cased usernames in first-seen order |
| ChannelFinder.LoadRowsLast | tiktok_channel_finder.py:101-102 | each key holds the last row with that key, so a later duplicate wins while the key keeps its first position |
| ChannelFinder.LoadExistingChannels | tiktok_channel_finder.py:93-106 | the loop builds the key order and the table of `LoadRows` over the rows read, with a fresh, distinct row object per key (a missing file gives an empty table) |
| ChannelFinder.LoadNext | tiktok_channel_finder.py:101-102 | one row read keeps the loop invariants of `LoadExistingChannels` |
| ChannelFinder.KeywordsToSave | tiktok_channel_finder.py:148 | the search keywords, or "general_search" when they are empty |
| ChannelFinder.NewRecordFields | tiktok_channel_finder.py:162-172 | a new record has exactly the seven columns, the username, its profile URL, `first_found` equal to `last_updated`, the run id, keywords and country, and is filed under the lower-cased username |
| ChannelFinder.NewRecords | tiktok_channel_finder.py:160-172 | one new record per found username whose lower-cased form is not a table key, with that username |
| ChannelFinder.MergedRows | tiktok_channel_finder.py:175-182 | one written row per table key, each the key's loaded row after the updates for the found usernames with that key |
| ChannelFinder.MergeOne | tiktok_channel_finder.py:153-172 | a username whose lower-cased form is a key updates that row in place with the time read for that update (no other row changes) and is listed as updated; any other adds a new record, outside the table, stamped with the run's time |
| ChannelFinder.MergeNext | tiktok_channel_finder.py:153-172 | one iteration keeps the loop invariants of `MergeFound` |
| ChannelFinder.MergeFound | tiktok_channel_finder.py:153-172 | each table row is updated once per found username with its key (case-insensitively), each update with its own time reading; the new rows are the new records in input order; new plus updated counts equal the number of usernames |
| ChannelFinder.SaveChannelsToCsv | tiktok_channel_finder.py:133-213 | new plus updated counts equal the number of usernames; the written rows are the existing rows in table order, each updated once per matching username with that update's time, followed by the new records in input order, stamped with the time read at the start; nothing is written when there are no rows |
| ChannelFinder.WriteBack | tiktok_channel_finder.py:174-203 | the written rows are the merged table rows then the new records, or nothing when both are empty |
| ChannelFinder.WrittenRows | tiktok_channel_finder.py:175 | the assembled list's fields are the merged rows followed by the new records, each table row sitting at its key's position with its key's username |
| ChannelFinder.ReplaceUpdated | tiktok_channel_finder.py:177-182 | putting each updated row back at the first position with its lower-cased username leaves the list unchanged, since it is already there |
| Text.LowerChar | tiktok_channel_validator.py:46 | upper-case ASCII letters map to lower case, everything else is unchanged |
| Text.Lower | tiktok_channel_validator.py:46 | lower-casing keeps the length (character by character in `LowerAt`) |
| Text.LowerAt | tiktok_channel_validator.py:46 | lower-casing works character by character |
| Text.IsSpaceChars | video_processor.py:39 | the whitespace characters are exactly '\t', '\n', '\v', '\f', '\r', 0x1C to 0x1F and ' ' |
| Text.StripLeading | video_processor.py:39 | the result is a suffix of the input that is empty or starts with a non-space |
| Text.StripTrailing | video_processor.py:39 | the result is a prefix of the input that is empty or ends with a non-space |
| Text.StripLeadingSpaces | video_processor.py:39 | only whitespace is dropped from the front |
| Text.StripTrailingSpaces | video_processor.py:39 | only whitespace is dropped from the back |
| Text.Strip | video_processor.py:39 | the stripped string is no longer and neither starts nor ends with whitespace |
| Text.StripSlice | video_processor.py:39 | the stripped string is the slice that starts after the leading whitespace |
| Text.StripRemovesOnlySpace | video_processor.py:39 | everything outside that slice is whitespace |
| Text.StripIdentity | video_processor.py:39 | a string without surrounding whitespace is left as it is |
| Text.StripEmpty | video_processor.py:26 | a string strips to nothing exactly when all its characters are whitespace |
| Text.IntToString | tiktok_channel_validator.py:138 | `str(n)` is a numeral that reads back as `n`, with a leading '-' exactly for a negative number |
| Text.NatToString | tiktok_channel_validator.py:138 | the decimal digits of a natural number: at least one, reading back as the number, with no leading zero unless the number is 0 |
| Text.IntToStringInjective | tiktok_channel_validator.py:138 | different numbers have different numerals |
| Text.Split | archive/quick_channel_validator.py:149 | at least one piece, and a single piece equal to the input when there is only one |
| Text.SplitSeparators | archive/quick_channel_validator.py:149 | no piece holds the separator, and there is a single piece exactly when the input has no separator |
| Text.SplitFirst | archive/quick_channel_validator.py:149 | the first piece is a prefix followed by the separator or the end |
| Text.SplitLast | archive/quick_channel_validator.py:149 | the last piece is a suffix preceded by the separator, or is the whole string |
| Text.JoinSplit | archive/quick_channel_validator.py:149 | joining the pieces of a split with the separator gives back the string |
| Text.SplitJoin | archive/quick_channel_validator.py:149 | splitting the join of separator-free pieces gives back the pieces |
| Text.RemoveChars | video_processor.py:34-35 | the result is no longer than the input |
| Text.RemoveCharsMembers | video_processor.py:34-35 | a character is in the result exactly when it is in the input and not in the class |
| Text.RemoveCharsAppend | video_processor.py:34-35 | removal works piece by piece: removing from a concatenation concatenates the removals |
| Text.RemoveCharsSingle | video_processor.py:34-35 | a single character is dropped exactly when it is in the class |
| Text.RemoveCharsCount | video_processor.py:34-35 | each character outside the class occurs as often in the result as in the input, and no character of the class occurs |
| Text.RemoveCharsIsSubsequence | video_processor.py:34-35 | a character-class removal only deletes characters, keeping the order of the rest |
| Text.RemoveCharsAbsent | video_processor.py:34-35 | removing characters that do not occur changes nothing |
| VideoProcessor.KeepsLine | video_processor.py:26 | a line is kept exactly when it has a non-whitespace character and does not start with '#' |
| VideoProcessor.LoadLinks | video_processor.py:18-29 | a missing links file gives no links |
| VideoProcessor.KeptLinks | video_processor.py:25-27 | no more links than lines |
| VideoProcessor.KeptLinksAppend | video_processor.py:25-27 | the filter works line by line: the links of two parts of a file are the links of each part, concatenated |
| VideoProcessor.KeptLinksSingle | video_processor.py:25-27 | a single line gives its stripped form exactly when it is kept |
| VideoProcessor.LoadLinksMembers | video_processor.py:25-27 | a string is a link exactly when it is the stripped form of a line that is not blank and does not start with '#' |
| VideoProcessor.LinksAreStripped | video_processor.py:25-27 | every link is non-empty and has no surrounding whitespace |
| VideoProcessor.CommentNeedsFirstColumn | video_processor.py:25-27 | "#skip" is dropped but "  #x" is kept as "#x" |
| VideoProcessor.IndentedCommentLine | video_processor.py:26 | the line "  #x" is kept and strips to "#x" |
| VideoProcessor.RemoveOccurrences | video_processor.py:36 | the result has no character the input lacks |
| VideoProcessor.Truncate | video_processor.py:37-38 | the result is a prefix of at most 100 characters, the whole input when it is that short |
| VideoProcessor.RemoveDotsLeavesNone | video_processor.py:36 | the left-to-right removal of "..." leaves no three consecutive dots |
| VideoProcessor.NoTripleDotMeansNoDots | video_processor.py:36 | no three consecutive dots means no "..." substring |
| VideoProcessor.SanitizeFilename | video_processor.py:32-39 | the sanitized name has at most 100 characters and no leading or trailing whitespace |
| VideoProcessor.CleanedContent | video_processor.py:34-36 | after the three removals, none of the characters `<`, `>`, `:`, `"`, `/`, `\`, the vertical bar, `?`, `*`, `#`, `@` and no three consecutive dots remain |
| VideoProcessor.SanitizedContent | video_processor.py:34-39 | the sanitized name holds none of the characters `<`, `>`, `:`, `"`, `/`, `\`, the vertical bar, `?`, `*`, `#`, `@` and no "..." |
| VideoProcessor.SanitizedIsSubsequence | video_processor.py:34-39 | the sanitized name is obtained from the input by deleting characters only |
| VideoProcessor.RemoveOccurrencesIsSubsequence | video_processor.py:36 | removing "..." only deletes characters |
| VideoProcessor.SliceStagesDelete | video_processor.py:37-39 | truncating and stripping only delete characters |
| VideoProcessor.RemoveDotsAbsent | video_processor.py:36 | removing "..." from a string without three consecutive dots changes nothing |
| VideoProcessor.SanitizeIdempotent | video_processor.py:32-39 | sanitizing a sanitized name changes nothing |

## Left out

- The browser calls are not modelled: Selenium driver setup, `driver.get`, `WebDriverWait` and the CSS selectors. An attempt's observations are given as `Probe` values instead.
- `time.time()` durations are not measured. A decided attempt's `time_taken` is the probe's `millis`.
- `time.sleep` is not performed. The 3-second sleeps and 2-second pauses are counted.
- Driver quitting is a counter: each started driver is counted as quit once, by the `finally` clause.
- `datetime.now()` is read by parameters, so the model does not say the format of the time or of the search-run id. `now` is the reading for `current_time`, `runId` the id built from the second reading, and `stamps(i)` the reading inside `update_channel_data` for the `i`-th found username. Each update may therefore carry its own time.
- CSV parsing and writing are not modelled: `os.path.exists`, `open`, `DictReader`, `DictWriter`, the header taken from the first row, and column order. Files are `Option<seq<Row>>`, and the lines of the links file are given already split.
- `CsvValidator.ValidateCsvChannels`: three kinds of row raise `KeyError` in the source, and the requires clauses exclude them rather than modelling the crash. They are an input row without a `username` column (`HasUsernames`), a queued row without a `profile_url` column (`HasInputColumns` of the queue), and, for a non-empty input, a prior row with a non-empty status but no `username` column (`StatusRowsNamed`).
- `CsvValidator.ReadExistingResults`: a prior row that has a non-empty status but no `username` column raises `KeyError` in the source. The requires clause `StatusRowsNamed` excludes it; rows without a status need no username.
- All console output is left out: `print` calls, the summary listings and the `total_time` figures.
- The OpenAI call in `find_pet_channels` is left out, as are the prompt text and the finder's `__main__` block.
- The yt-dlp and Gemini calls of the video processor are left out, as are `save_metadata`, `process_links`, `process_single_link` and the argparse `main` functions.
- `Text.LowerChar`, `Text.IsSpace`: only the ASCII range is modelled. Python's Unicode case mapping and whitespace beyond ASCII are not.
- `RetryController.RunAttempts`: a `max_attempts` that is not positive makes no attempt and ends exhausted, as `range(1, max_attempts + 1)` does. Python's unbounded `int` is used as is.
- `ChannelFinder.LoadExistingChannels`: only a row without a `username` column ends the reading early. Any other read error of the source's `try` is out, because it comes from file I/O.

=== FILE: channel_finder.dfy ===
/** The channel finder's record logic: usernames scraped from the search
    answer, and the merge of the found usernames into the channel table. */
module ChannelFinder {
  import opened Wrappers
  import opened Text
  import opened Records

  /** The characters of `[a-zA-Z0-9._]`. */
  predicate Allowed(c: char) {
    'a' <= c <= 'z' || 'A' <= c <= 'Z' || '0' <= c <= '9' || c == '.' || c == '_'
  }

  /** The length of the longest run of allowed characters starting at `i`. */
  function RunLength(s: string, i: nat): (n: nat)
    requires i <= |s|
    ensures i + n <= |s|
    ensures forall k :: i <= k < i + n ==> Allowed(s[k])
    ensures i + n == |s| || !Allowed(s[i + n])
    decreases |s| - i
  {
    if i == |s| || !Allowed(s[i]) then 0 else 1 + RunLength(s, i + 1)
  }

  /** A match of the pattern begins at `i`: an '@' followed by an allowed character. */
  predicate MatchStart(s: string, i: int) {
    0 <= i && i + 1 < |s| && s[i] == '@' && Allowed(s[i + 1])
  }

  /** The left-to-right scan of `re.findall`: from `i`, take a match where one
      starts and resume after it, otherwise move on by one character. */
  function Scan(s: string, i: nat): (r: seq<string>)
    requires i <= |s|
    ensures forall k :: 0 <= k < |r| ==> r[k] != [] && forall c :: c in r[k] ==> Allowed(c)
    decreases |s| - i
  {
    if i == |s| then []
    else if MatchStart(s, i) then
      var n := RunLength(s, i + 1);
      [s[i + 1..i + 1 + n]] + Scan(s, i + 1 + n)
    else Scan(s, i + 1)
  }

  /** `re.findall(r"@([a-zA-Z0-9._]+)", text)`. */
  function FindAll(text: string): (r: seq<string>)
    ensures r == EveryMatch(text, 0)
    ensures forall k :: 0 <= k < |r| ==> r[k] != [] && forall c :: c in r[k] ==> Allowed(c)
  {
    ScanIsEveryMatch(text, 0);
    Scan(text, 0)
  }

  /** A reference reading of the pattern: every '@' followed by an allowed
      character contributes the longest allowed run after it, in position
      order. */
  function EveryMatch(s: string, i: nat): seq<string>
    requires i <= |s|
    decreases |s| - i
  {
    if i == |s| then []
    else (if MatchStart(s, i) then [s[i + 1..i + 1 + RunLength(s, i + 1)]] else []) + EveryMatch(s, i + 1)
  }

  /** No match starts inside a run of allowed characters (an '@' is not
      allowed), so the reference skips the run without a match. */
  lemma {:induction false} NoMatchInsideRun(s: string, i: nat, j: nat)
    requires i <= j <= |s|
    requires forall k :: i <= k < j ==> Allowed(s[k])
    ensures EveryMatch(s, i) == EveryMatch(s, j)
    decreases j - i
  {
    if i < j {
      assert !MatchStart(s, i);
      NoMatchInsideRun(s, i + 1, j);
    }
  }

  /** The scanner finds exactly the matches of the reference: matches never
      overlap, and none is lost by resuming after a run. */
  lemma {:induction false} ScanIsEveryMatch(s: string, i: nat)
    requires i <= |s|
    ensures Scan(s, i) == EveryMatch(s, i)
    decreases |s| - i
  {
    if i < |s| {
      if MatchStart(s, i) {
        var n := RunLength(s, i + 1);
        ScanIsEveryMatch(s, i + 1 + n);
        NoMatchInsideRun(s, i + 1, i + 1 + n);
        assert Scan(s, i) == [s[i + 1..i + 1 + n]] + Scan(s, i + 1 + n);
        assert EveryMatch(s, i) == [s[i + 1..i + 1 + n]] + EveryMatch(s, i + 1);
      } else {
        ScanIsEveryMatch(s, i + 1);
        assert Scan(s, i) == Scan(s, i + 1);
        assert EveryMatch(s, i) == [] + EveryMatch(s, i + 1);
      }
    }
  }

  /** Two adjacent matches are both found; an '@' before a character
      outside the class finds nothing. */
  lemma FindAllExample()
    ensures FindAll("@a@b") == ["a", "b"]
    ensures FindAll("@!x") == []
  {
    ScanExample();
  }

  /** The scans behind `FindAllExample`. */
  lemma ScanExample()
    ensures Scan("@a@b", 0) == ["a", "b"]
    ensures Scan("@!x", 0) == []
  {
    var s := "@a@b";
    assert RunLength(s, 4) == 0;
    assert RunLength(s, 3) == 1;
    assert Scan(s, 4) == [];
    assert MatchStart(s, 2) && s[3..4] == "b";
    assert Scan(s, 2) == ["b"];
    assert RunLength(s, 2) == 0;
    assert RunLength(s, 1) == 1;
    assert MatchStart(s, 0) && s[1..2] == "a";
    assert Scan(s, 0) == ["a"] + Scan(s, 2);
    var t := "@!x";
    assert !MatchStart(t, 0) && !MatchStart(t, 1) && !MatchStart(t, 2);
    assert Scan(t, 3) == [] && Scan(t, 2) == [] && Scan(t, 1) == [];
  }

  /** The first position of `x` in `s`. */
  function FirstPos(s: seq<string>, x: string): (p: nat)
    requires x in s
    ensures p < |s| && s[p] == x && x !in s[..p]
  {
    if s[0] == x then 0 else 1 + FirstPos(s[1..], x)
  }

  /** The order-preserving removal of duplicates: each string at its first
      occurrence. */
  function Dedup(s: seq<string>): (r: seq<string>)
    ensures forall i, j :: 0 <= i < j < |r| ==> r[i] != r[j]
    ensures forall x :: x in r <==> x in s
    ensures |r| <= |s|
  {
    if s == [] then []
    else
      var init := Dedup(s[..|s| - 1]);
      if s[|s| - 1] in init then init else init + [s[|s| - 1]]
  }

  /** `Dedup` keeps first occurrences in their order. */
  lemma {:induction false} DedupKeepsFirstOccurrenceOrder(s: seq<string>)
    ensures forall i, j :: 0 <= i < j < |Dedup(s)| ==> FirstPos(s, Dedup(s)[i]) < FirstPos(s, Dedup(s)[j])
  {
    if s != [] {
      var n := |s| - 1;
      var init := s[..n];
      var d := Dedup(init);
      DedupKeepsFirstOccurrenceOrder(init);
      forall x | x in init ensures FirstPos(s, x) == FirstPos(init, x) < n {
        FirstPosOfPrefix(s, n, x);
      }
      var r := Dedup(s);
      var last := s[n];
      if last !in d {
        FirstPosOfFresh(s, n);
      }
      assert r == if last in d then d else d + [last];
      forall i, j | 0 <= i < j < |r| ensures FirstPos(s, r[i]) < FirstPos(s, r[j]) {
        assert r[i] == d[i] && d[i] in init;
        if j < |d| {
          assert r[j] == d[j] && d[j] in init;
        }
      }
    }
  }

  /** Extending a sequence does not move a first occurrence. */
  lemma FirstPosOfPrefix(s: seq<string>, n: nat, x: string)
    requires n <= |s| && x in s[..n]
    ensures FirstPos(s, x) == FirstPos(s[..n], x)
  {
  }

  /** A string that first occurs at `n` has its first position there. */
  lemma FirstPosOfFresh(s: seq<string>, n: nat)
    requires n < |s| && s[n] !in s[..n]
    ensures FirstPos(s, s[n]) == n
  {
  }

  /** `extract_usernames`: the matches with duplicates (exact case) removed,
      keeping first occurrences in order. */
  method ExtractUsernames(responseText: string) returns (unique: seq<string>)
    ensures unique == Dedup(FindAll(responseText))
  {
    unique := KeepFirstOccurrences(FindAll(responseText));
  }

  /** The order-preserving duplicate removal loop of `extract_usernames`,
      with its set of names already seen. */
  method KeepFirstOccurrences(usernames: seq<string>) returns (unique: seq<string>)
    ensures unique == Dedup(usernames)
  {
    unique := [];
    var seen: set<string> := {};
    for i := 0 to |usernames|
      invariant unique == Dedup(usernames[..i])
      invariant forall x :: x in seen <==> x in unique
    {
      var username := usernames[i];
      assert usernames[..i + 1] == usernames[..i] + [username];
      DedupSnoc(usernames[..i], username);
      if username !in seen {
        unique := unique + [username];
        seen := seen + {username};
      }
    }
    assert usernames[..|usernames|] == usernames;
  }

  /** What `extract_usernames` returns: distinct names, each a non-empty run
      of allowed characters taken from the text, every match represented,
      in the order of first occurrence. */
  lemma ExtractedUsernames(text: string)
    ensures var r := Dedup(FindAll(text));
            && (forall i, j :: 0 <= i < j < |r| ==> r[i] != r[j])
            && (forall x :: x in r <==> x in EveryMatch(text, 0))
            && (forall x :: x in r ==> x != [] && forall c :: c in x ==> Allowed(c))
            && (forall i, j :: 0 <= i < j < |r| ==> FirstPos(FindAll(text), r[i]) < FirstPos(FindAll(text), r[j]))
  {
    ScanIsEveryMatch(text, 0);
    DedupKeepsFirstOccurrenceOrder(FindAll(text));
  }

  /** The keyword combination of `update_channel_data`: the new keywords are
      appended after ", " to non-empty existing keywords; otherwise the new
      keywords, or the existing ones when there are no new ones. */
  function CombineKeywords(existing: string, added: string): (r: string)
    ensures StartsWith(r, existing)
    ensures |added| <= |r| && r[|r| - |added|..] == added
    ensures existing != "" && added != "" ==> |r| == |existing| + 2 + |added| && r[|existing|..|existing| + 2] == ", "
    ensures existing == "" ==> r == added
    ensures added == "" ==> r == existing
  {
    if existing != "" && added != "" then existing + ", " + added
    else if added != "" then added
    else existing
  }

  /** The country combination of `update_channel_data`: a country not yet in
      the field is appended after ", ".  A country that already occurs in the
      field, even as part of a longer entry, replaces the whole field. */
  function CombineCountry(existing: string, added: string): (r: string)
    ensures Contains(r, added)
    ensures added == "" ==> r == existing
    ensures existing == "" ==> r == added
    ensures existing != "" && !Contains(existing, added) ==>
              StartsWith(r, existing) && r[|existing|..] == ", " + added
    ensures added != "" && Contains(existing, added) ==> r == added
  {
    assert added == "" ==> OccursAt(existing, added, 0);
    if existing != "" && !Contains(existing, added) then
      var r := existing + ", " + added;
      assert OccursAt(r, added, |existing| + 2);
      r
    else if added != "" then
      assert OccursAt(added, added, 0);
      added
    else
      assert OccursAt(existing, added, 0);
      existing
  }

  /** Updating twice with the same country collapses the field to that
      country alone. */
  lemma CountryRepeatCollapses(existing: string, country: string)
    requires country != ""
    ensures CombineCountry(CombineCountry(existing, country), country) == country
  {
  }

  /** The columns `update_channel_data` writes. */
  predicate Touched(key: string) {
    key == "keywords" || key == "country" || key == "last_updated"
  }

  /** The fields of a row after `update_channel_data`. */
  function UpdateFields(fields: Row, newKeywords: string, newCountry: string, now: string): (r: Row)
    ensures r.Keys == fields.Keys + {"keywords", "country", "last_updated"}
    ensures forall key :: key in fields && !Touched(key) ==> r[key] == fields[key]
    ensures "keywords" in r && r["keywords"] == CombineKeywords(Get(fields, "keywords", ""), newKeywords)
    ensures "country" in r && r["country"] == CombineCountry(Get(fields, "country", ""), newCountry)
    ensures "last_updated" in r && r["last_updated"] == now
  {
    fields["keywords" := CombineKeywords(Get(fields, "keywords", ""), newKeywords)]
          ["country" := CombineCountry(Get(fields, "country", ""), newCountry)]
          ["last_updated" := now]
  }

  /** A channel row, shared between the table of existing channels and the
      list that is written back, and updated in place. */
  class ChannelRow {
    var fields: Row

    constructor (fields: Row)
      ensures this.fields == fields
    {
      this.fields := fields;
    }
  }

  /** `update_channel_data`: combine keywords and country, stamp
      `last_updated`, and return the same row. */
  method UpdateChannelData(row: ChannelRow, newKeywords: string, newCountry: string, now: string)
    returns (same: ChannelRow)
    modifies row
    ensures same == row
    ensures row.fields == UpdateFields(old(row.fields), newKeywords, newCountry, now)
  {
    var existingKeywords := Get(row.fields, "keywords", "");
    var combinedKeywords := CombineKeywords(existingKeywords, newKeywords);
    var existingCountries := Get(row.fields, "country", "");
    var combinedCountries := CombineCountry(existingCountries, newCountry);
    row.fields := row.fields["keywords" := combinedKeywords];
    row.fields := row.fields["country" := combinedCountries];
    row.fields := row.fields["last_updated" := now];
    same := row;
  }

  /** The rows read before the first one without a username column, whose
      lookup raises and ends the reading. */
  function LoadedPrefix(rows: seq<Row>): (r: seq<Row>)
    ensures |r| <= |rows| && r == rows[..|r|]
    ensures HasUsernames(r)
    ensures |r| == |rows| || "username" !in rows[|r|]
  {
    if rows == [] || "username" !in rows[0] then [] else [rows[0]] + LoadedPrefix(rows[1..])
  }

  /** The table key of a row: its lower-cased username. */
  function KeyOf(row: Row): string
    requires "username" in row
  {
    Lower(row["username"])
  }

  /** The keys of the rows, in order. */
  function Keys(rows: seq<Row>): (r: seq<string>)
    requires HasUsernames(rows)
    ensures |r| == |rows|
    ensures forall i :: 0 <= i < |rows| ==> r[i] == KeyOf(rows[i])
  {
    seq(|rows|, i requires 0 <= i < |rows| => KeyOf(rows[i]))
  }

  /** The last row with key `k`: the one the table keeps. */
  function LastByKey(rows: seq<Row>, k: string): (r: Option<Row>)
    requires HasUsernames(rows)
    ensures r.Some? ==> r.value in rows && "username" in r.value && KeyOf(r.value) == k
    ensures r.None? <==> k !in Keys(rows)
  {
    if rows == [] then None
    else
      var n := |rows| - 1;
      assert Keys(rows) == Keys(rows[..n]) + [KeyOf(rows[n])];
      if KeyOf(rows[n]) == k then Some(rows[n]) else LastByKey(rows[..n], k)
  }

  /** `LastByKey` finds a row with the key after which no row has it. */
  lemma LastByKeyMeaning(rows: seq<Row>, k: string)
    requires HasUsernames(rows)
    ensures LastByKey(rows, k).Some? ==>
              exists i :: 0 <= i < |rows| && rows[i] == LastByKey(rows, k).value
                          && forall j :: i < j < |rows| ==> KeyOf(rows[j]) != k
  {
    if LastByKey(rows, k).Some? {
      var i := LastByKeyIndex(rows, k);
    }
  }

  /** The position of the row `LastByKey` finds. */
  lemma {:induction false} LastByKeyIndex(rows: seq<Row>, k: string) returns (i: nat)
    requires HasUsernames(rows) && LastByKey(rows, k).Some?
    ensures i < |rows| && rows[i] == LastByKey(rows, k).value
    ensures forall j :: i < j < |rows| ==> KeyOf(rows[j]) != k
  {
    var n := |rows| - 1;
    var init := rows[..n];
    LastByKeySnoc(rows, k);
    if KeyOf(rows[n]) == k {
      i := n;
    } else {
      i := LastByKeyIndex(init, k);
      forall j | i < j < |rows| ensures KeyOf(rows[j]) != k {
        if j < n {
          assert rows[j] == init[j];
        }
      }
    }
  }

  /** The table keys are distinct rows. */
  predicate Distinct(table: map<string, ChannelRow>) {
    forall k1, k2 :: k1 in table && k2 in table && k1 != k2 ==> table[k1] != table[k2]
  }

  /** The keys of the rows, split before the last one. */
  lemma KeysSnoc(rows: seq<Row>)
    requires rows != [] && HasUsernames(rows)
    ensures HasUsernames(rows[..|rows| - 1])
    ensures Keys(rows) == Keys(rows[..|rows| - 1]) + [KeyOf(rows[|rows| - 1])]
  {
  }

  /** Deduplicating one more key. */
  lemma DedupSnoc(s: seq<string>, x: string)
    ensures Dedup(s + [x]) == if x in Dedup(s) then Dedup(s) else Dedup(s) + [x]
  {
    assert (s + [x])[..|s|] == s;
  }

  /** The last row for a key, split before the last row. */
  lemma LastByKeySnoc(rows: seq<Row>, k: string)
    requires rows != [] && HasUsernames(rows)
    ensures HasUsernames(rows[..|rows| - 1])
    ensures LastByKey(rows, k) == if KeyOf(rows[|rows| - 1]) == k then Some(rows[|rows| - 1])
                                 else LastByKey(rows[..|rows| - 1], k)
  {
  }

  /** The table built from the rows, as values: the keys in first-seen order
      and, for each key, the fields of its row. */
  datatype Loading = Loading(keys: seq<string>, view: map<string, Row>)

  /** Reading the rows one after the other: a row whose key is new appends
      the key; every row replaces the fields stored under its key. */
  function LoadRows(rows: seq<Row>): (r: Loading)
    requires HasUsernames(rows)
    ensures forall k :: k in r.view <==> k in r.keys
    ensures forall k :: k in r.view ==> "username" in r.view[k] && KeyOf(r.view[k]) == k
  {
    if rows == [] then Loading([], map[])
    else
      var n := |rows| - 1;
      AddRow(LoadRows(rows[..n]), rows[n])
  }

  /** Storing one row under its key. */
  function AddRow(loading: Loading, row: Row): (r: Loading)
    requires "username" in row
    ensures KeyOf(row) in r.view && r.view[KeyOf(row)] == row
    ensures forall k :: k != KeyOf(row) ==> (k in r.view <==> k in loading.view)
    ensures forall k :: k != KeyOf(row) && k in loading.view ==> r.view[k] == loading.view[k]
  {
    var key := KeyOf(row);
    Loading(if key in loading.view then loading.keys else loading.keys + [key], loading.view[key := row])
  }

  /** The keys after reading rows are the distinct keys of the rows in
      first-seen order. */
  lemma {:induction false} LoadRowsKeys(rows: seq<Row>)
    requires HasUsernames(rows)
    ensures LoadRows(rows).keys == Dedup(Keys(rows))
  {
    if rows != [] {
      var n := |rows| - 1;
      LoadRowsKeys(rows[..n]);
      KeysSnoc(rows);
      DedupSnoc(Keys(rows[..n]), KeyOf(rows[n]));
    }
  }

  /** After reading rows, each key holds the last row with that key. */
  lemma {:induction false} LoadRowsLast(rows: seq<Row>)
    requires HasUsernames(rows)
    ensures forall k :: k in LoadRows(rows).view ==> LastByKey(rows, k) == Some(LoadRows(rows).view[k])
  {
    if rows != [] {
      var n := |rows| - 1;
      LoadRowsLast(rows[..n]);
      forall k | k in LoadRows(rows).view ensures LastByKey(rows, k) == Some(LoadRows(rows).view[k]) {
        LastByKeySnoc(rows, k);
      }
    }
  }

  /** Reading one more row. */
  lemma LoadRowsStep(rows: seq<Row>, i: nat)
    requires i < |rows| && HasUsernames(rows[..i]) && "username" in rows[i]
    ensures HasUsernames(rows[..i + 1])
    ensures LoadRows(rows[..i + 1]) == AddRow(LoadRows(rows[..i]), rows[i])
  {
    assert rows[..i + 1][..i] == rows[..i];
  }

  /** `load_existing_channels`, as an ordered dictionary: `keys` in insertion
      order and `table` from key to row.  A later row with the same key
      replaces the earlier one but keeps its position.  A missing file gives
      an empty table. */
  method LoadExistingChannels(file: Option<seq<Row>>) returns (keys: seq<string>, table: map<string, ChannelRow>)
    ensures HasUsernames(LoadedPrefix(FileRows(file)))
    ensures keys == LoadRows(LoadedPrefix(FileRows(file))).keys
    ensures forall k :: k in table <==> k in LoadRows(LoadedPrefix(FileRows(file))).view
    ensures forall k :: k in table ==> table[k].fields == LoadRows(LoadedPrefix(FileRows(file))).view[k]
    ensures forall k :: k in table ==> fresh(table[k])
    ensures Distinct(table)
  {
    var rows := FileRows(file);
    ghost var view: map<string, Row> := map[];
    keys, table := [], map[];
    var i := 0;
    while i < |rows| && "username" in rows[i]
      invariant i <= |rows| && HasUsernames(rows[..i])
      invariant LoadRows(rows[..i]) == Loading(keys, view)
      invariant TableHolds(table, view)
      invariant forall k :: k in table ==> fresh(table[k])
    {
      keys, view, table := LoadNext(rows, i, keys, view, table);
      i := i + 1;
    }
    LoadedPrefixAt(rows, i);
  }

  /** The table holds, under each key of `view`, a row of its own whose
      fields are the ones `view` gives. */
  ghost predicate TableHolds(table: map<string, ChannelRow>, view: map<string, Row>)
    reads TableRows(table)
  {
    && (forall k :: k in table <==> k in view)
    && (forall k :: k in table ==> table[k].fields == view[k])
    && Distinct(table)
  }

  /** One iteration of the reading loop: store row `i` under its key. */
  method LoadNext(rows: seq<Row>, i: nat, keys: seq<string>, ghost view: map<string, Row>, table: map<string, ChannelRow>)
    returns (keys': seq<string>, ghost view': map<string, Row>, table': map<string, ChannelRow>)
    requires i < |rows| && HasUsernames(rows[..i]) && "username" in rows[i]
    requires LoadRows(rows[..i]) == Loading(keys, view)
    requires TableHolds(table, view)
    ensures HasUsernames(rows[..i + 1])
    ensures LoadRows(rows[..i + 1]) == Loading(keys', view')
    ensures TableHolds(table', view')
    ensures forall k :: k in table' ==> fresh(table'[k]) || (k in table && table'[k] == table[k])
  {
    var row := rows[i];
    LoadRowsStep(rows, i);
    var key := Lower(row["username"]);
    assert key == KeyOf(row) && (key in table <==> key in view);
    keys' := if key in table then keys else keys + [key];
    var channel := new ChannelRow(row);
    table' := table[key := channel];
    view' := view[key := row];
    TableAdd(table, view, key, channel, row);
  }

  /** Storing, under a key, a row object that no other key holds and that
      carries the row keeps the table in step with the rows read. */
  lemma TableAdd(table: map<string, ChannelRow>, view: map<string, Row>, key: string, channel: ChannelRow, row: Row)
    requires TableHolds(table, view) && channel.fields == row
    requires forall k :: k in table ==> table[k] != channel
    ensures TableHolds(table[key := channel], view[key := row])
  {
  }

  /** Reading stops at the first row without a username column. */
  lemma {:induction false} LoadedPrefixAt(rows: seq<Row>, i: nat)
    requires i <= |rows| && HasUsernames(rows[..i])
    requires i == |rows| || "username" !in rows[i]
    ensures LoadedPrefix(rows) == rows[..i]
  {
    if i > 0 {
      assert "username" in rows[..i][0];
      LoadedPrefixAt(rows[1..], i - 1);
      assert rows[1..][..i - 1] == rows[..i][1..];
      assert rows[..i] == [rows[0]] + rows[..i][1..];
    }
  }

  /** The keywords recorded by a run: the search keywords, or
      "general_search" when there are none. */
  function KeywordsToSave(searchKeywords: string): (r: string)
    ensures r != ""
    ensures searchKeywords != "" ==> r == searchKeywords
    ensures searchKeywords == "" ==> r == "general_search"
  {
    if searchKeywords != "" then searchKeywords else "general_search"
  }

  /** The record of a channel seen for the first time. */
  function NewRecord(username: string, keywords: string, country: string, now: string, runId: string): Row {
    map["username" := username, "profile_url" := ProfilePrefix + username, "first_found" := now,
        "last_updated" := now, "search_run" := runId, "keywords" := keywords, "country" := country]
  }

  /** A new record fills the seven columns of the channel table: it is
      filed under the lower-cased username, links to that username's
      profile, and was first found when it was last updated. */
  lemma NewRecordFields(username: string, keywords: string, country: string, now: string, runId: string)
    ensures var r := NewRecord(username, keywords, country, now, runId);
            && r.Keys == {"username", "profile_url", "first_found", "last_updated", "search_run", "keywords", "country"}
            && r["username"] == username && KeyOf(r) == Lower(username)
            && r["profile_url"] == ProfilePrefix + username
            && r["first_found"] == r["last_updated"]
            && r["keywords"] == keywords && r["country"] == country && r["search_run"] == runId
  {
  }

  /** The records added for the usernames whose key is not in `keys`, in order. */
  function NewRecords(usernames: seq<string>, keys: seq<string>, keywords: string, country: string,
                      now: string, runId: string): (r: seq<Row>)
    ensures |r| <= |usernames|
    ensures HasUsernames(r)
    ensures forall j :: 0 <= j < |r| ==> r[j]["username"] in usernames && KeyOf(r[j]) !in keys
  {
    if usernames == [] then []
    else
      var n := |usernames| - 1;
      NewRecords(usernames[..n], keys, keywords, country, now, runId)
      + (if Lower(usernames[n]) in keys then [] else [NewRecord(usernames[n], keywords, country, now, runId)])
  }

  /** The fields of a table row after the updates made for `usernames`:
      every username whose lower-cased form is `k` updates the row once, and
      the update made for username `i` is stamped with the clock reading
      `stamps(i)`. */
  function Updated(base: Row, usernames: seq<string>, k: string, keywords: string, country: string,
                   stamps: nat -> string): Row
  {
    if usernames == [] then base
    else
      var n := |usernames| - 1;
      var prev := Updated(base, usernames[..n], k, keywords, country, stamps);
      if Lower(usernames[n]) == k then UpdateFields(prev, keywords, country, stamps(n)) else prev
  }

  /** Updates never touch the username. */
  lemma {:induction false} RepeatedKeepsUsername(base: Row, usernames: seq<string>, k: string, keywords: string,
                                                 country: string, stamps: nat -> string)
    requires "username" in base
    ensures var r := Updated(base, usernames, k, keywords, country, stamps);
            "username" in r && r["username"] == base["username"]
  {
    if usernames != [] {
      var n := |usernames| - 1;
      RepeatedKeepsUsername(base, usernames[..n], k, keywords, country, stamps);
      UpdateKeepsUsername(Updated(base, usernames[..n], k, keywords, country, stamps), keywords, country, stamps(n));
    }
  }

  /** One update does not touch the username. */
  lemma UpdateKeepsUsername(fields: Row, keywords: string, country: string, now: string)
    requires "username" in fields
    ensures var r := UpdateFields(fields, keywords, country, now);
            "username" in r && r["username"] == fields["username"]
  {
    assert !Touched("username");
  }

  /** A row that no found username matches is left as it was. */
  lemma {:induction false} UpdatedUntouched(base: Row, usernames: seq<string>, k: string, keywords: string,
                                            country: string, stamps: nat -> string)
    requires forall j :: 0 <= j < |usernames| ==> Lower(usernames[j]) != k
    ensures Updated(base, usernames, k, keywords, country, stamps) == base
  {
    if usernames != [] {
      UpdatedUntouched(base, usernames[..|usernames| - 1], k, keywords, country, stamps);
    }
  }

  /** A row that was updated carries the clock reading of its last update. */
  lemma {:induction false} UpdatedStamp(base: Row, usernames: seq<string>, k: string, keywords: string,
                                        country: string, stamps: nat -> string, i: nat)
    requires i < |usernames| && Lower(usernames[i]) == k
    requires forall j :: i < j < |usernames| ==> Lower(usernames[j]) != k
    ensures var r := Updated(base, usernames, k, keywords, country, stamps);
            "last_updated" in r && r["last_updated"] == stamps(i)
  {
    var n := |usernames| - 1;
    if i < n {
      var init := usernames[..n];
      assert init[i] == usernames[i];
      forall j | i < j < |init| ensures Lower(init[j]) != k {
        assert init[j] == usernames[j];
      }
      UpdatedStamp(base, init, k, keywords, country, stamps, i);
    }
  }

  /** The existing rows as written back: in table order, each with the
      updates of the found usernames with its key. */
  function MergedRows(loading: Loading, usernames: seq<string>, keywords: string, country: string,
                      stamps: nat -> string): (r: seq<Row>)
    requires forall j :: 0 <= j < |loading.keys| ==> loading.keys[j] in loading.view
    ensures |r| == |loading.keys|
    ensures forall j :: 0 <= j < |loading.keys| ==>
              r[j] == Updated(loading.view[loading.keys[j]], usernames, loading.keys[j], keywords, country, stamps)
  {
    seq(|loading.keys|, j requires 0 <= j < |loading.keys| =>
      Updated(loading.view[loading.keys[j]], usernames, loading.keys[j], keywords, country, stamps))
  }

  /** The fields of a list of rows. */
  function Fields(rows: seq<ChannelRow>): (r: seq<Row>)
    reads rows
    ensures |r| == |rows|
    ensures forall j :: 0 <= j < |rows| ==> r[j] == rows[j].fields
  {
    if rows == [] then [] else Fields(rows[..|rows| - 1]) + [rows[|rows| - 1].fields]
  }

  /** The rows held in the table. */
  function TableRows(table: map<string, ChannelRow>): set<ChannelRow> {
    set k | k in table :: table[k]
  }

  /** The new records over one more username. */
  lemma NewRecordsStep(usernames: seq<string>, i: nat, keys: seq<string>, keywords: string, country: string,
                       now: string, runId: string)
    requires i < |usernames|
    ensures NewRecords(usernames[..i + 1], keys, keywords, country, now, runId)
            == NewRecords(usernames[..i], keys, keywords, country, now, runId)
               + (if Lower(usernames[i]) in keys then [] else [NewRecord(usernames[i], keywords, country, now, runId)])
  {
    assert usernames[..i + 1][..i] == usernames[..i];
  }

  /** The value-level step of the merge loop for the row with key `k`. */
  lemma MergeStep(usernames: seq<string>, i: nat, k: string, keywords: string, country: string,
                  stamps: nat -> string, base: Row, prev: Row, cur: Row)
    requires i < |usernames|
    requires prev == Updated(base, usernames[..i], k, keywords, country, stamps)
    requires cur == if k == Lower(usernames[i]) then UpdateFields(prev, keywords, country, stamps(i)) else prev
    ensures cur == Updated(base, usernames[..i + 1], k, keywords, country, stamps)
  {
    assert usernames[..i + 1][..i] == usernames[..i];
  }

  /** The table rows after the first `i` usernames of the merge loop: each
      holds its fields at the start, `base`, with the updates so far. */
  ghost predicate TableMerged(table: map<string, ChannelRow>, base: map<string, Row>, usernames: seq<string>,
                              i: nat, keywords: string, country: string, stamps: nat -> string)
    reads TableRows(table)
    requires i <= |usernames|
  {
    forall k :: k in table ==>
      k in base && table[k].fields == Updated(base[k], usernames[..i], k, keywords, country, stamps)
  }

  /** The new rows of the merge loop hold the records `added`, and none of
      them is a table row. */
  ghost predicate NewRows(newChannels: seq<ChannelRow>, added: seq<Row>, rows: set<ChannelRow>)
    reads newChannels
  {
    |newChannels| == |added| && forall j :: 0 <= j < |newChannels| ==> newChannels[j] !in rows && newChannels[j].fields == added[j]
  }

  /** One iteration of the loop of `save_channels_to_csv`: a username whose
      lower-cased form is a table key updates that row in place, stamped
      `stamp`, and is listed as updated; any other becomes a new record
      stamped `now`, in a row that is not a table row. */
  method MergeOne(username: string, keys: seq<string>, table: map<string, ChannelRow>,
                  keywords: string, country: string, now: string, stamp: string, runId: string,
                  newChannels: seq<ChannelRow>, updatedChannels: seq<ChannelRow>,
                  ghost added: seq<Row>, ghost rows: set<ChannelRow>)
    returns (newChannels': seq<ChannelRow>, updatedChannels': seq<ChannelRow>, ghost added': seq<Row>)
    requires forall k :: k in table <==> k in keys
    requires Distinct(table)
    requires TableRows(table) == rows
    requires NewRows(newChannels, added, rows)
    requires forall t :: 0 <= t < |updatedChannels| ==> updatedChannels[t] in rows
    modifies rows
    ensures forall k :: k in table ==>
              table[k].fields == if k == Lower(username) then UpdateFields(old(table[k].fields), keywords, country, stamp)
                                 else old(table[k].fields)
    ensures Lower(username) in keys ==> |newChannels'| == |newChannels| && |updatedChannels'| == |updatedChannels| + 1
    ensures Lower(username) !in keys ==> |newChannels'| == |newChannels| + 1 && updatedChannels' == updatedChannels
    ensures added' == added + if Lower(username) in keys then [] else [NewRecord(username, keywords, country, now, runId)]
    ensures NewRows(newChannels', added', rows)
    ensures forall t :: 0 <= t < |updatedChannels'| ==> updatedChannels'[t] in rows
  {
    var key := Lower(username);
    if key in table {
      var updatedRow := UpdateChannelData(table[key], keywords, country, stamp);
      newChannels', updatedChannels', added' := newChannels, updatedChannels + [updatedRow], added;
    } else {
      var record := new ChannelRow(NewRecord(username, keywords, country, now, runId));
      newChannels', updatedChannels' := newChannels + [record], updatedChannels;
      added' := added + [record.fields];
    }
  }

  /** One iteration of the merge loop: after the first `i` usernames each
      table row has received one update per occurrence of its key, the new
      rows hold the records `added` of the unknown usernames, and every
      username so far is listed exactly once; the iteration for username
      `i` keeps this. */
  method MergeNext(usernames: seq<string>, i: nat, keys: seq<string>, table: map<string, ChannelRow>,
                   ghost base: map<string, Row>, keywords: string, country: string, now: string,
                   stamps: nat -> string, runId: string,
                   newChannels: seq<ChannelRow>, updatedChannels: seq<ChannelRow>,
                   ghost added: seq<Row>, ghost rows: set<ChannelRow>)
    returns (newChannels': seq<ChannelRow>, updatedChannels': seq<ChannelRow>, ghost added': seq<Row>)
    requires i < |usernames|
    requires forall k :: k in table <==> k in keys
    requires Distinct(table)
    requires TableRows(table) == rows
    requires TableMerged(table, base, usernames, i, keywords, country, stamps)
    requires |newChannels| + |updatedChannels| == i
    requires added == NewRecords(usernames[..i], keys, keywords, country, now, runId)
    requires NewRows(newChannels, added, rows)
    requires forall t :: 0 <= t < |updatedChannels| ==> updatedChannels[t] in rows
    modifies rows
    ensures TableMerged(table, base, usernames, i + 1, keywords, country, stamps)
    ensures |newChannels'| + |updatedChannels'| == i + 1
    ensures added' == NewRecords(usernames[..i + 1], keys, keywords, country, now, runId)
    ensures NewRows(newChannels', added', rows)
    ensures forall t :: 0 <= t < |updatedChannels'| ==> updatedChannels'[t] in rows
  {
    ghost var before := map k | k in table :: table[k].fields;
    NewRecordsStep(usernames, i, keys, keywords, country, now, runId);
    newChannels', updatedChannels', added' := MergeOne(usernames[i], keys, table, keywords, country, now, stamps(i),
                                                       runId, newChannels, updatedChannels, added, rows);
    forall k | k in table
      ensures k in base && table[k].fields == Updated(base[k], usernames[..i + 1], k, keywords, country, stamps)
    {
      MergeStep(usernames, i, k, keywords, country, stamps, base[k], before[k], table[k].fields);
    }
  }

  /** The loop of `save_channels_to_csv` over the found usernames. */
  method MergeFound(usernames: seq<string>, keys: seq<string>, table: map<string, ChannelRow>,
                    keywords: string, country: string, now: string, stamps: nat -> string, runId: string,
                    ghost rows: set<ChannelRow>)
    returns (newChannels: seq<ChannelRow>, updatedChannels: seq<ChannelRow>)
    requires forall k :: k in table <==> k in keys
    requires Distinct(table)
    requires TableRows(table) == rows
    modifies rows
    ensures forall k :: k in table ==>
              table[k].fields == Updated(old(table[k].fields), usernames, k, keywords, country, stamps)
    ensures |newChannels| + |updatedChannels| == |usernames|
    ensures NewRows(newChannels, NewRecords(usernames, keys, keywords, country, now, runId), rows)
    ensures forall t :: 0 <= t < |updatedChannels| ==> updatedChannels[t] in rows
  {
    ghost var base := map k | k in table :: table[k].fields;
    ghost var added := [];
    newChannels, updatedChannels := [], [];
    for i := 0 to |usernames|
      invariant TableMerged(table, base, usernames, i, keywords, country, stamps)
      invariant |newChannels| + |updatedChannels| == i
      invariant added == NewRecords(usernames[..i], keys, keywords, country, now, runId)
      invariant NewRows(newChannels, added, rows)
      invariant forall t :: 0 <= t < |updatedChannels| ==> updatedChannels[t] in rows
    {
      newChannels, updatedChannels, added := MergeNext(usernames, i, keys, table, base, keywords, country, now, stamps,
                                                       runId, newChannels, updatedChannels, added, rows);
    }
    assert usernames[..|usernames|] == usernames;
  }

  /** `save_channels_to_csv` without the console output: found usernames
      whose lower-cased form is a key of the existing table update that row;
      the others become new records.  The rows written are the existing rows
      in table order followed by the new records; nothing is written when
      there are none.  The clock is read once for `current_time` (`now`),
      once more for the run id (`runId`), and again by every update: the
      update made for the `i`-th found username is stamped `stamps(i)`. */
  method SaveChannelsToCsv(usernames: seq<string>, file: Option<seq<Row>>, searchKeywords: string,
                           country: string, now: string, runId: string, stamps: nat -> string)
    returns (written: Option<seq<Row>>, newCount: nat, updatedCount: nat)
    ensures newCount + updatedCount == |usernames|
    ensures var loading := LoadRows(LoadedPrefix(FileRows(file)));
            var keywords := KeywordsToSave(searchKeywords);
            var added := NewRecords(usernames, loading.keys, keywords, country, now, runId);
            && newCount == |added|
            && written == if loading.keys == [] && added == [] then None
                          else Some(MergedRows(loading, usernames, keywords, country, stamps) + added)
  {
    var keys, table := LoadExistingChannels(file);
    ghost var loading := LoadRows(LoadedPrefix(FileRows(file)));
    LoadRowsKeys(LoadedPrefix(FileRows(file)));
    var keywordsToSave := KeywordsToSave(searchKeywords);
    var newChannels, updatedChannels := MergeFound(usernames, keys, table, keywordsToSave, country, now, stamps, runId,
                                                   TableRows(table));
    written := WriteBack(keys, table, newChannels, updatedChannels, loading, usernames, keywordsToSave, country,
                         now, runId, stamps);
    newCount, updatedCount := |newChannels|, |updatedChannels|;
  }

  /** The end of `save_channels_to_csv`: the table rows in key order followed
      by the new records, each updated row put back in place, written out
      unless there are no rows at all. */
  method WriteBack(keys: seq<string>, table: map<string, ChannelRow>, newChannels: seq<ChannelRow>,
                   updatedChannels: seq<ChannelRow>, ghost loading: Loading, usernames: seq<string>,
                   keywords: string, country: string, now: string, runId: string, stamps: nat -> string)
    returns (written: Option<seq<Row>>)
    requires keys == loading.keys
    requires forall i, j :: 0 <= i < j < |keys| ==> keys[i] != keys[j]
    requires forall k :: k in loading.view <==> k in keys
    requires forall k :: k in loading.view ==> "username" in loading.view[k] && KeyOf(loading.view[k]) == k
    requires forall k :: k in table <==> k in keys
    requires forall k :: k in table ==>
               table[k].fields == Updated(loading.view[k], usernames, k, keywords, country, stamps)
    requires NewRows(newChannels, NewRecords(usernames, keys, keywords, country, now, runId), TableRows(table))
    requires forall t :: 0 <= t < |updatedChannels| ==> updatedChannels[t] in TableRows(table)
    ensures written == if keys == [] && NewRecords(usernames, keys, keywords, country, now, runId) == [] then None
                       else Some(MergedRows(loading, usernames, keywords, country, stamps)
                                 + NewRecords(usernames, keys, keywords, country, now, runId))
  {
    var existing := seq(|keys|, j requires 0 <= j < |keys| => table[keys[j]]);
    var allChannels := existing + newChannels;
    WrittenRows(loading, table, usernames, keywords, country, now, runId, stamps, existing, newChannels);
    allChannels := ReplaceUpdated(allChannels, updatedChannels, keys, table);
    assert |allChannels| == |keys| + |NewRecords(usernames, keys, keywords, country, now, runId)|;
    if |allChannels| > 0 {
      written := Some(Fields(allChannels));
    } else {
      written := None;
    }
  }

  /** The list assembled after the merge loop: the table rows in key order,
      now the merged rows, followed by the new records; every row carries a
      username, and each table row the username of its key. */
  lemma WrittenRows(loading: Loading, table: map<string, ChannelRow>, usernames: seq<string>,
                    keywords: string, country: string, now: string, runId: string, stamps: nat -> string,
                    existing: seq<ChannelRow>, newChannels: seq<ChannelRow>)
    requires forall k :: k in loading.view ==> "username" in loading.view[k] && KeyOf(loading.view[k]) == k
    requires forall j :: 0 <= j < |loading.keys| ==> loading.keys[j] in loading.view && loading.keys[j] in table
    requires |existing| == |loading.keys|
    requires forall j :: 0 <= j < |existing| ==> existing[j] == table[loading.keys[j]]
    requires forall j :: 0 <= j < |existing| ==>
               existing[j].fields == Updated(loading.view[loading.keys[j]], usernames, loading.keys[j],
                                             keywords, country, stamps)
    requires |newChannels| == |NewRecords(usernames, loading.keys, keywords, country, now, runId)|
    requires forall j :: 0 <= j < |newChannels| ==>
               newChannels[j].fields == NewRecords(usernames, loading.keys, keywords, country, now, runId)[j]
    ensures var all := existing + newChannels;
            && Fields(all) == MergedRows(loading, usernames, keywords, country, stamps)
                              + NewRecords(usernames, loading.keys, keywords, country, now, runId)
            && (forall j :: 0 <= j < |existing| ==> all[j] == table[loading.keys[j]])
            && (forall j :: 0 <= j < |all| ==> "username" in all[j].fields)
            && (forall j :: 0 <= j < |existing| ==> KeyOf(all[j].fields) == loading.keys[j])
  {
    var all := existing + newChannels;
    var keys := loading.keys;
    var merged := MergedRows(loading, usernames, keywords, country, stamps);
    var added := NewRecords(usernames, keys, keywords, country, now, runId);
    forall j | 0 <= j < |all|
      ensures Fields(all)[j] == (merged + added)[j] && "username" in all[j].fields
      ensures j < |keys| ==> all[j] == table[keys[j]] && KeyOf(all[j].fields) == keys[j]
    {
      if j < |keys| {
        assert all[j] == existing[j];
        RepeatedKeepsUsername(loading.view[keys[j]], usernames, keys[j], keywords, country, stamps);
      } else {
        assert all[j] == newChannels[j - |keys|];
      }
    }
  }

  /** The loop that puts each updated row back at the first position whose
      lower-cased username matches.  Every updated row is a table row, which
      already sits at the position of its key, and no earlier row has that
      key: the loop leaves the list as it is. */
  method ReplaceUpdated(allChannels: seq<ChannelRow>, updatedChannels: seq<ChannelRow>,
                        ghost keys: seq<string>, ghost table: map<string, ChannelRow>)
    returns (result: seq<ChannelRow>)
    requires |keys| <= |allChannels|
    requires forall k :: k in table <==> k in keys
    requires forall i, j :: 0 <= i < j < |keys| ==> keys[i] != keys[j]
    requires forall j :: 0 <= j < |keys| ==> allChannels[j] == table[keys[j]]
    requires forall j :: 0 <= j < |allChannels| ==> "username" in allChannels[j].fields
    requires forall j :: 0 <= j < |keys| ==> KeyOf(allChannels[j].fields) == keys[j]
    requires forall t :: 0 <= t < |updatedChannels| ==> updatedChannels[t] in TableRows(table)
    ensures result == allChannels
  {
    result := allChannels;
    for t := 0 to |updatedChannels|
      invariant result == allChannels
    {
      var updated := updatedChannels[t];
      ghost var k :| k in table && table[k] == updated;
      ghost var p :| 0 <= p < |keys| && keys[p] == k;
      var i := 0;
      while i < |result|
        invariant i <= p
      {
        if Lower(result[i].fields["username"]) == Lower(updated.fields["username"]) {
          assert i == p;
          result := result[i := updated];
          break;
        }
        i := i + 1;
      }
    }
  }
}

=== FILE: classifier.dfy ===
/** One validation attempt against a channel's profile page.

    The browser is not modelled: what an attempt observes is given as a
    `Probe` value, one per attempt, and the attempt's classification is a
    function of it.  The same attempt code stands in the current validator
    and in its archived copy, so both use this module. */
module AttemptClassifier {
  import opened Wrappers
  import opened Text

  /** The outcome of one `WebDriverWait(...).until(...)` followed by reading
      the element's text: the element was found (with its text), the wait
      timed out, or some other exception was raised. */
  datatype Wait = Found(text: string) | Timeout | Fault(reason: string)

  /** The outcome of `driver.get(profile_url)`. */
  datatype PageLoad = Loaded | LoadFault(reason: string)

  /** What one attempt observes.  `DriverStartFailure` is an exception from
      creating the browser driver, which happens before the attempt's `try`;
      `Session` is an attempt whose driver started, with the page load, the
      wait for the error container (step 1), the wait for the user title
      (step 2) and the attempt's wall-clock duration in milliseconds. */
  datatype Probe =
    | DriverStartFailure(reason: string)
    | Session(load: PageLoad, errorContainer: Wait, userTitle: Wait, millis: nat)

  /** The `rule_matched` field of an attempt's result. */
  datatype Rule = InvalidRule | ValidRule | NoMatch | ErrorRule

  /** The dictionary an attempt returns: status, message, `is_valid`
      (None, True or False) and the rule that matched. */
  datatype AttemptResult = AttemptResult(status: string, message: string, isValid: Option<bool>, rule: Rule)

  /** The phrase whose presence in the lower-cased error-container text marks
      a missing account. */
  const NotFoundPhrase: string := "couldn't find this account"

  const InvalidStatus: string := "❌ INVALID"
  const ValidStatus: string := "✅ VALID"
  const NoMatchStatus: string := "❓ NO_MATCH"
  const ErrorStatus: string := "⚠️ ERROR"

  /** Step 1 decides: the error container was found and its lower-cased text
      contains the not-found phrase. */
  predicate ShowsNotFound(w: Wait) {
    w.Found? && Contains(Lower(w.text), NotFoundPhrase)
  }

  /** Step 1 lets the attempt go on to step 2: it timed out, or it found a
      container whose text does not carry the phrase. */
  predicate FallsThrough(w: Wait) {
    w.Timeout? || (w.Found? && !ShowsNotFound(w))
  }

  function InvalidResult(errorText: string): AttemptResult {
    AttemptResult(InvalidStatus, "Account not found: '" + errorText + "'", Some(false), InvalidRule)
  }

  function ValidResult(title: string): AttemptResult {
    AttemptResult(ValidStatus, "Username title found: '" + title + "'", Some(true), ValidRule)
  }

  function NoMatchResult(): AttemptResult {
    AttemptResult(NoMatchStatus, "Neither valid nor invalid rule matched", None, NoMatch)
  }

  function ErrorResult(reason: string): AttemptResult {
    AttemptResult(ErrorStatus, "Error: " + reason, None, ErrorRule)
  }

  /** The classification of an attempt whose driver started: step 1 first,
      step 2 only when step 1 falls through; every exception other than a
      wait timeout becomes `ERROR`. */
  function Classify(load: PageLoad, errorContainer: Wait, userTitle: Wait): (r: AttemptResult)
    // step 1 decides INVALID whatever step 2 would show
    ensures r.rule == InvalidRule <==> load.Loaded? && ShowsNotFound(errorContainer)
    ensures r.rule == InvalidRule ==> r == InvalidResult(errorContainer.text)
    // step 2 is reached only if step 1 falls through
    ensures r.rule == ValidRule <==> load.Loaded? && FallsThrough(errorContainer) && userTitle.Found?
    ensures r.rule == ValidRule ==> r == ValidResult(userTitle.text)
    ensures r.rule == NoMatch <==> load.Loaded? && FallsThrough(errorContainer) && userTitle.Timeout?
    ensures r.rule == ErrorRule <==>
              load.LoadFault? || errorContainer.Fault? || (FallsThrough(errorContainer) && userTitle.Fault?)
    // is_valid is True, False or None exactly for VALID, INVALID and the rest
    ensures r.isValid == Some(true) <==> r.rule == ValidRule
    ensures r.isValid == Some(false) <==> r.rule == InvalidRule
  {
    match load
    case LoadFault(e) => ErrorResult(e)
    case Loaded =>
      match errorContainer
      case Fault(e) => ErrorResult(e)
      case Timeout => TitleStep(userTitle)
      case Found(t) => if Contains(Lower(t), NotFoundPhrase) then InvalidResult(t) else TitleStep(userTitle)
  }

  /** Step 2 on its own: the user title found, timed out, or a fault. */
  function TitleStep(userTitle: Wait): AttemptResult {
    match userTitle
    case Found(t) => ValidResult(t)
    case Timeout => NoMatchResult()
    case Fault(e) => ErrorResult(e)
  }

  /** `validate_tiktok_channel_single_attempt` as a whole: a failure to start
      the driver escapes as an exception (it is raised before the `try`), and
      every other observation is classified. */
  function SingleAttempt(p: Probe): (r: Result<AttemptResult, string>)
    ensures r.Failure? <==> p.DriverStartFailure?
    ensures r.Failure? ==> r.error == p.reason
  {
    match p
    case DriverStartFailure(e) => Failure(e)
    case Session(load, errorContainer, userTitle, _) => Success(Classify(load, errorContainer, userTitle))
  }

  /** A definitive result ends the retry loop. */
  predicate IsDefinitive(r: AttemptResult) {
    r.rule == ValidRule || r.rule == InvalidRule
  }

  /** An attempt ends the retry loop when its result is definitive, or when
      starting its driver raised. */
  predicate EndsRetries(p: Probe) {
    p.DriverStartFailure? || IsDefinitive(Classify(p.load, p.errorContainer, p.userTitle))
  }

  /** A missing-account message on the error container wins over a title
      that is present at the same time: the two rules are not a tie. */
  lemma NotFoundWinsOverTitle(errorText: string, title: string)
    requires Contains(Lower(errorText), NotFoundPhrase)
    ensures Classify(Loaded, Found(errorText), Found(title)).rule == InvalidRule
  {
  }

  /** The not-found phrase is matched whatever the case of its letters. */
  lemma {:induction false} PhraseMatchIsCaseInsensitive(prefix: string, shown: string, suffix: string)
    requires Lower(shown) == NotFoundPhrase
    ensures ShowsNotFound(Found(prefix + shown + suffix))
  {
    var s := prefix + shown + suffix;
    forall i | 0 <= i < |shown| ensures Lower(s)[|prefix| + i] == Lower(shown)[i] {
      LowerAt(s, |prefix| + i);
      LowerAt(shown, i);
    }
    assert Lower(s)[|prefix|..|prefix| + |shown|] == Lower(shown);
    assert OccursAt(Lower(s), NotFoundPhrase, |prefix|);
  }
}

=== FILE: csv_validator.dfy ===
/** The batch side of the current validator: prior results read from the
    output file, the skip of channels that already have a status, the status
    update after each validation, and the sorted report. */
module CsvValidator {
  import opened Wrappers
  import opened Records
  import opened AttemptClassifier
  import opened RetryController
  import opened StatusReport

  /** Every row has the username and profile_url columns the validation loop reads. */
  predicate HasInputColumns(rows: seq<Row>) {
    forall i :: 0 <= i < |rows| ==> "username" in rows[i] && "profile_url" in rows[i]
  }

  /** A prior row is reused when its status cell is present and non-empty. */
  predicate HasStatus(row: Row) {
    "status" in row && row["status"] != ""
  }

  /** Every prior row with a status has the username column that the reader
      then looks up; the other rows are never asked for it. */
  predicate StatusRowsNamed(rows: seq<Row>) {
    forall i :: 0 <= i < |rows| && HasStatus(rows[i]) ==> "username" in rows[i]
  }

  /** Row `i` of `rows` is a prior result for `username`. */
  predicate ResultAt(rows: seq<Row>, i: int, username: string)
    requires StatusRowsNamed(rows)
  {
    0 <= i < |rows| && HasStatus(rows[i]) && rows[i]["username"] == username
  }

  /** The prior result for `username`: the last row with that exact username
      and a non-empty status. */
  function LastResult(rows: seq<Row>, username: string): (r: Option<Row>)
    requires StatusRowsNamed(rows)
    ensures r.Some? ==> HasStatus(r.value) && "username" in r.value && r.value["username"] == username
  {
    if rows == [] then None
    else
      var last := rows[|rows| - 1];
      if HasStatus(last) && last["username"] == username then Some(last)
      else LastResult(rows[..|rows| - 1], username)
  }

  /** `LastResult` finds the last matching row, and finds none only when
      there is none. */
  lemma {:induction false} LastResultMeaning(rows: seq<Row>, username: string)
    requires StatusRowsNamed(rows)
    ensures LastResult(rows, username).None? <==> forall i :: 0 <= i < |rows| ==> !ResultAt(rows, i, username)
    ensures LastResult(rows, username).Some? ==>
              exists i :: ResultAt(rows, i, username) && rows[i] == LastResult(rows, username).value
                          && forall j :: i < j < |rows| ==> !ResultAt(rows, j, username)
  {
    if rows != [] {
      var n := |rows| - 1;
      var init := rows[..n];
      assert StatusRowsNamed(init);
      LastResultMeaning(init, username);
      forall i | 0 <= i < n ensures ResultAt(rows, i, username) == ResultAt(init, i, username) {
        assert rows[i] == init[i];
      }
      if ResultAt(rows, n, username) {
        assert rows[n] == LastResult(rows, username).value;
      } else if LastResult(init, username).Some? {
        var i :| ResultAt(init, i, username) && init[i] == LastResult(init, username).value
                 && forall j :: i < j < |init| ==> !ResultAt(init, j, username);
        assert ResultAt(rows, i, username);
      }
    }
  }

  /** The status a channel keeps from a previous run, if it has one. */
  function PriorStatus(prior: Option<seq<Row>>, username: string): Option<string>
    requires StatusRowsNamed(FileRows(prior))
  {
    match LastResult(FileRows(prior), username)
    case None => None
    case Some(row) => Some(row["status"])
  }

  /** `read_existing_results`: the rows with a non-empty status, keyed by
      exact username, a later row replacing an earlier one. */
  method ReadExistingResults(prior: Option<seq<Row>>) returns (processed: map<string, Row>)
    requires StatusRowsNamed(FileRows(prior))
    ensures forall u :: u in processed <==> LastResult(FileRows(prior), u).Some?
    ensures forall u :: u in processed ==> processed[u] == LastResult(FileRows(prior), u).value
  {
    processed := map[];
    if prior.None? {
      return;
    }
    var rows := prior.value;
    for i := 0 to |rows|
      invariant StatusRowsNamed(rows[..i])
      invariant forall u :: u in processed <==> LastResult(rows[..i], u).Some?
      invariant forall u :: u in processed ==> processed[u] == LastResult(rows[..i], u).value
    {
      assert rows[..i + 1][..i] == rows[..i];
      var row := rows[i];
      if "status" in row && row["status"] != "" {
        processed := processed[row["username"] := row];
      }
    }
    assert rows[..|rows|] == rows;
  }

  /** The channels of the input that have no prior result, in input order. */
  function NotYetProcessed(channels: seq<Row>, prior: Option<seq<Row>>): (r: seq<Row>)
    requires HasUsernames(channels) && StatusRowsNamed(FileRows(prior))
    ensures |r| <= |channels|
    ensures forall i :: 0 <= i < |r| ==> r[i] in channels
    ensures HasUsernames(r)
    ensures forall i :: 0 <= i < |r| ==> PriorStatus(prior, r[i]["username"]).None?
  {
    if channels == [] then []
    else
      var last := channels[|channels| - 1];
      NotYetProcessed(channels[..|channels| - 1], prior)
      + (if PriorStatus(prior, last["username"]).None? then [last] else [])
  }

  /** One more channel: it is queued exactly when it has no prior result. */
  lemma NotYetProcessedStep(channels: seq<Row>, prior: Option<seq<Row>>, i: nat)
    requires HasUsernames(channels) && StatusRowsNamed(FileRows(prior)) && i < |channels|
    ensures HasUsernames(channels[..i]) && HasUsernames(channels[..i + 1])
    ensures NotYetProcessed(channels[..i + 1], prior)
            == NotYetProcessed(channels[..i], prior)
               + (if PriorStatus(prior, channels[i]["username"]).None? then [channels[i]] else [])
  {
    assert channels[..i + 1][..i] == channels[..i];
  }

  /** A report row before validation: the channel with its prior status, if
      it has one. */
  function WithPriorStatus(channel: Row, prior: Option<seq<Row>>): (r: Row)
    requires "username" in channel && StatusRowsNamed(FileRows(prior))
    ensures "username" in r && r["username"] == channel["username"]
  {
    match PriorStatus(prior, channel["username"])
    case Some(status) => channel["status" := status]
    case None => channel
  }

  /** The usernames of `rows`, in order. */
  function Usernames(rows: seq<Row>): (r: seq<string>)
    requires HasUsernames(rows)
    ensures |r| == |rows|
  {
    seq(|rows|, i requires 0 <= i < |rows| => rows[i]["username"])
  }

  /** The skip loop of `validate_csv_channels`: a channel with a prior result
      takes the prior status and is not validated again; every other channel
      is queued for validation.  The report rows keep the input's length and
      order. */
  method SplitByPriorResult(channels: seq<Row>, prior: Option<seq<Row>>, processed: map<string, Row>)
    returns (toProcess: seq<Row>, all: seq<Row>)
    requires HasUsernames(channels) && StatusRowsNamed(FileRows(prior))
    requires forall u :: u in processed <==> PriorStatus(prior, u).Some?
    requires forall u :: u in processed ==> "status" in processed[u] && processed[u]["status"] == PriorStatus(prior, u).value
    ensures toProcess == NotYetProcessed(channels, prior)
    ensures |all| == |channels|
    ensures forall i :: 0 <= i < |channels| ==> all[i] == WithPriorStatus(channels[i], prior)
  {
    toProcess, all := [], [];
    for i := 0 to |channels|
      invariant HasUsernames(channels[..i])
      invariant toProcess == NotYetProcessed(channels[..i], prior)
      invariant |all| == i
      invariant forall k :: 0 <= k < i ==> all[k] == WithPriorStatus(channels[k], prior)
    {
      toProcess, all := SkipNext(channels, prior, processed, i, toProcess, all);
    }
    assert channels[..|channels|] == channels;
  }

  /** Iteration `i` of the skip loop. */
  method SkipNext(channels: seq<Row>, prior: Option<seq<Row>>, processed: map<string, Row>, i: nat,
                  toProcess: seq<Row>, all: seq<Row>)
    returns (toProcess': seq<Row>, all': seq<Row>)
    requires HasUsernames(channels) && StatusRowsNamed(FileRows(prior)) && i < |channels|
    requires forall u :: u in processed <==> PriorStatus(prior, u).Some?
    requires forall u :: u in processed ==> "status" in processed[u] && processed[u]["status"] == PriorStatus(prior, u).value
    requires HasUsernames(channels[..i]) && toProcess == NotYetProcessed(channels[..i], prior)
    requires |all| == i && forall k :: 0 <= k < i ==> all[k] == WithPriorStatus(channels[k], prior)
    ensures HasUsernames(channels[..i + 1]) && toProcess' == NotYetProcessed(channels[..i + 1], prior)
    ensures |all'| == i + 1 && forall k :: 0 <= k < i + 1 ==> all'[k] == WithPriorStatus(channels[k], prior)
  {
    NotYetProcessedStep(channels, prior, i);
    var channel := channels[i];
    var username := channel["username"];
    if username in processed {
      var withStatus := channel["status" := processed[username]["status"]];
      toProcess', all' := toProcess, all + [withStatus];
    } else {
      toProcess', all' := toProcess + [channel], all + [channel];
    }
  }

  /** The index of the first row with this username, or `|rows|`. */
  function FirstIndex(rows: seq<Row>, username: string): (r: nat)
    requires HasUsernames(rows)
    ensures r <= |rows|
    ensures r < |rows| ==> rows[r]["username"] == username
    ensures forall j :: 0 <= j < r ==> rows[j]["username"] != username
  {
    if rows == [] then 0
    else if rows[0]["username"] == username then 0
    else 1 + FirstIndex(rows[1..], username)
  }

  /** Two row lists with the same usernames have the same first indexes. */
  lemma {:induction false} FirstIndexByUsernames(a: seq<Row>, b: seq<Row>, username: string)
    requires HasUsernames(a) && HasUsernames(b) && Usernames(a) == Usernames(b)
    ensures FirstIndex(a, username) == FirstIndex(b, username)
  {
    if a != [] {
      assert a[0]["username"] == Usernames(a)[0] == Usernames(b)[0] == b[0]["username"];
      assert HasUsernames(a[1..]) && HasUsernames(b[1..]);
      assert Usernames(a[1..]) == Usernames(a)[1..] == Usernames(b)[1..] == Usernames(b[1..]);
      FirstIndexByUsernames(a[1..], b[1..], username);
    }
  }

  /** The inner loop that records a result: the status is set on the first
      row with the username and on no other row. */
  method RecordStatus(all: seq<Row>, username: string, status: string) returns (updated: seq<Row>)
    requires HasUsernames(all)
    ensures |updated| == |all|
    ensures forall j :: 0 <= j < |all| ==>
              updated[j] == if j == FirstIndex(all, username) then all[j]["status" := status] else all[j]
  {
    updated := all;
    for j := 0 to |all|
      invariant updated == all
      invariant forall k :: 0 <= k < j ==> all[k]["username"] != username
    {
      if all[j]["username"] == username {
        updated := all[j := all[j]["status" := status]];
        return;
      }
    }
  }

  /** The index of the last occurrence of `username`, if any. */
  function LastIndex(names: seq<string>, username: string): (r: Option<nat>)
    ensures r.Some? ==> r.value < |names| && names[r.value] == username
    ensures r.Some? ==> forall j :: r.value < j < |names| ==> names[j] != username
    ensures r.None? ==> forall j :: 0 <= j < |names| ==> names[j] != username
  {
    if names == [] then None
    else if names[|names| - 1] == username then Some(|names| - 1)
    else LastIndex(names[..|names| - 1], username)
  }

  /** The report row `j` once the results `statuses` of the validations of
      `validated` have been recorded: the first row of a validated username
      carries the status of that username's last validation. */
  function Recorded(all0: seq<Row>, j: nat, validated: seq<string>, statuses: seq<string>): Row
    requires HasUsernames(all0) && j < |all0| && |statuses| == |validated|
  {
    var username := all0[j]["username"];
    match LastIndex(validated, username)
    case Some(k) => if j == FirstIndex(all0, username) then all0[j]["status" := statuses[k]] else all0[j]
    case None => all0[j]
  }

  /** Recording one more result keeps report row `j` equal to `Recorded`,
      given that `first` is where the username is first found. */
  lemma RecordStepAt(all0: seq<Row>, validated: seq<string>, statuses: seq<string>,
                     username: string, status: string, first: nat, j: nat)
    requires HasUsernames(all0) && |statuses| == |validated| && j < |all0|
    requires first == FirstIndex(all0, username)
    ensures (if j == first then Recorded(all0, j, validated, statuses)["status" := status]
             else Recorded(all0, j, validated, statuses))
            == Recorded(all0, j, validated + [username], statuses + [status])
  {
    assert LastIndex(validated + [username], username) == Some(|validated|);
    assert (validated + [username])[..|validated|] == validated;
  }

  /** Recording one more result keeps every report row equal to `Recorded`. */
  lemma RecordStep(all0: seq<Row>, all: seq<Row>, validated: seq<string>, statuses: seq<string>,
                   username: string, status: string, updated: seq<Row>)
    requires HasUsernames(all0) && |statuses| == |validated| && |all| == |all0|
    requires HasUsernames(all) && Usernames(all) == Usernames(all0)
    requires forall j :: 0 <= j < |all| ==> all[j] == Recorded(all0, j, validated, statuses)
    requires |updated| == |all|
    requires forall j :: 0 <= j < |all| ==>
               updated[j] == if j == FirstIndex(all, username) then all[j]["status" := status] else all[j]
    ensures HasUsernames(updated) && Usernames(updated) == Usernames(all0)
    ensures forall j :: 0 <= j < |updated| ==>
              updated[j] == Recorded(all0, j, validated + [username], statuses + [status])
  {
    FirstIndexByUsernames(all, all0, username);
    var first := FirstIndex(all, username);
    forall j | 0 <= j < |updated|
      ensures updated[j]["username"] == all0[j]["username"]
    {
      assert all[j]["username"] == Usernames(all)[j] == Usernames(all0)[j];
    }
    assert Usernames(updated) == Usernames(all0);
    forall j | 0 <= j < |updated|
      ensures updated[j] == Recorded(all0, j, validated + [username], statuses + [status])
    {
      RecordStepAt(all0, validated, statuses, username, status, first, j);
    }
  }

  /** The report rows, stated in terms of the input rows and the prior
      results. */
  lemma RecordedFromInput(channels: seq<Row>, prior: Option<seq<Row>>, all0: seq<Row>,
                          validated: seq<string>, statuses: seq<string>, j: nat)
    requires HasUsernames(channels) && StatusRowsNamed(FileRows(prior)) && HasUsernames(all0)
    requires |all0| == |channels| && Usernames(all0) == Usernames(channels) && j < |channels|
    requires |statuses| == |validated|
    requires forall k :: 0 <= k < |validated| ==> PriorStatus(prior, validated[k]).None?
    requires all0[j] == WithPriorStatus(channels[j], prior)
    ensures Recorded(all0, j, validated, statuses) ==
              match PriorStatus(prior, channels[j]["username"])
              case Some(status) => channels[j]["status" := status]
              case None => Recorded(channels, j, validated, statuses)
  {
    var username := channels[j]["username"];
    assert all0[j]["username"] == Usernames(all0)[j] == username;
    FirstIndexByUsernames(all0, channels, username);
  }

  /** The validation loop over the queued channels: channel `k` is validated
      with `world(k)`, its status recorded on the report rows, with a pause
      between consecutive channels.  `crash` holds the message of an
      exception that escapes from starting a browser driver. */
  method ValidateQueue(toProcess: seq<Row>, all0: seq<Row>, maxAttempts: int, world: nat -> nat -> Probe)
    returns (crash: Option<string>, all: seq<Row>, validated: seq<string>, statuses: seq<string>, pauses: nat)
    requires HasInputColumns(toProcess) && HasUsernames(all0)
    ensures |statuses| == |validated| <= |toProcess|
    ensures validated == Usernames(toProcess[..|validated|])
    ensures forall k :: 0 <= k < |statuses| ==> statuses[k] == StatusAfter(maxAttempts, world(k))
    // the loop runs until the first channel whose driver does not start
    ensures forall k :: 0 <= k < |validated| ==> !Ending(maxAttempts, world(k)).Crashed?
    ensures crash.Some? ==> |validated| < |toProcess| && Ending(maxAttempts, world(|validated|)).Crashed?
    ensures crash.Some? ==> crash.value == Ending(maxAttempts, world(|validated|)).reason
    ensures crash.Some? ==> pauses == |validated|
    ensures crash.None? ==> |validated| == |toProcess| && pauses == if |validated| == 0 then 0 else |validated| - 1
    ensures crash.None? ==> forall k :: 0 <= k < |toProcess| ==> !Ending(maxAttempts, world(k)).Crashed?
    ensures |all| == |all0|
    ensures forall j :: 0 <= j < |all| ==> all[j] == Recorded(all0, j, validated, statuses)
  {
    crash, all, validated, statuses, pauses := None, all0, [], [], 0;
    for k := 0 to |toProcess|
      invariant |validated| == |statuses| == k
      invariant validated == Usernames(toProcess[..k])
      invariant forall i :: 0 <= i < k ==> statuses[i] == StatusAfter(maxAttempts, world(i))
      invariant forall i :: 0 <= i < k ==> !Ending(maxAttempts, world(i)).Crashed?
      invariant pauses == if k == |toProcess| && k > 0 then k - 1 else k
      invariant |all| == |all0| && HasUsernames(all) && Usernames(all) == Usernames(all0)
      invariant forall j :: 0 <= j < |all| ==> all[j] == Recorded(all0, j, validated, statuses)
    {
      var crashed, nextAll, nextValidated, nextStatuses :=
        QueueNext(toProcess, all0, maxAttempts, world, k, all, validated, statuses);
      if crashed.Some? {
        crash := crashed;
        return;
      }
      all, validated, statuses := nextAll, nextValidated, nextStatuses;
      if k + 1 < |toProcess| {
        pauses := pauses + 1;
      }
    }
    assert toProcess[..|toProcess|] == toProcess;
  }

  /** The status recorded for a channel whose attempts observe `world`. */
  function StatusAfter(maxAttempts: int, world: nat -> Probe): (r: string)
    ensures r in {"valid", "invalid", "undefined"}
  {
    match Ending(maxAttempts, world)
    case Decided(result, _) => CsvStatus(result.status)
    case _ => "undefined"
  }

  /** Iteration `k` of the validation loop: validate the `k`-th queued
      channel and record its status, unless starting a driver failed. */
  method QueueNext(toProcess: seq<Row>, all0: seq<Row>, maxAttempts: int, world: nat -> nat -> Probe, k: nat,
                   all: seq<Row>, validated: seq<string>, statuses: seq<string>)
    returns (crashed: Option<string>, all': seq<Row>, validated': seq<string>, statuses': seq<string>)
    requires HasInputColumns(toProcess) && HasUsernames(all0) && k < |toProcess|
    requires |validated| == |statuses| == k && validated == Usernames(toProcess[..k])
    requires forall i :: 0 <= i < k ==> statuses[i] == StatusAfter(maxAttempts, world(i))
    requires |all| == |all0| && HasUsernames(all) && Usernames(all) == Usernames(all0)
    requires forall j :: 0 <= j < |all| ==> all[j] == Recorded(all0, j, validated, statuses)
    ensures crashed.Some? <==> Ending(maxAttempts, world(k)).Crashed?
    ensures crashed.Some? ==> crashed.value == Ending(maxAttempts, world(k)).reason
    ensures crashed.None? ==>
              && |validated'| == |statuses'| == k + 1 && validated' == Usernames(toProcess[..k + 1])
              && (forall i :: 0 <= i < k + 1 ==> statuses'[i] == StatusAfter(maxAttempts, world(i)))
              && |all'| == |all0| && HasUsernames(all') && Usernames(all') == Usernames(all0)
              && forall j :: 0 <= j < |all'| ==> all'[j] == Recorded(all0, j, validated', statuses')
  {
    var channel := toProcess[k];
    var username := channel["username"];
    var r, attempts, sleeps, drivers, quits := ValidateChannel(username, channel["profile_url"], maxAttempts, world(k));
    if r.Failure? {
      return Some(r.error), all, validated, statuses;
    }
    assert r.value.status == StatusAfter(maxAttempts, world(k));
    all' := RecordStatus(all, username, r.value.status);
    RecordStep(all0, all, validated, statuses, username, r.value.status, all');
    UsernamesPrefixStep(toProcess, k);
    crashed, validated', statuses' := None, validated + [username], statuses + [r.value.status];
  }

  /** The usernames of one more leading row. */
  lemma UsernamesPrefixStep(rows: seq<Row>, k: nat)
    requires HasUsernames(rows) && k < |rows|
    ensures Usernames(rows[..k + 1]) == Usernames(rows[..k]) + [rows[k]["username"]]
  {
  }

  /** Every queued channel lacks a prior result, so none of its usernames has one. */
  lemma QueuedHaveNoPrior(channels: seq<Row>, prior: Option<seq<Row>>, n: nat)
    requires HasUsernames(channels) && StatusRowsNamed(FileRows(prior))
    requires n <= |NotYetProcessed(channels, prior)|
    ensures forall k :: 0 <= k < n ==>
              PriorStatus(prior, Usernames(NotYetProcessed(channels, prior)[..n])[k]).None?
  {
  }

  /** `validate_csv_channels` without the console output: read the input
      rows and the prior results, validate each channel without a prior
      status, record each result on the first row of its channel, pause two
      seconds between validations, and write the rows sorted by status.
      `world(k)` drives the retry loop of the `k`-th validated channel.
      `written` is `Success(None)` when nothing is written and `Failure`
      when an exception escapes from starting a browser driver. */
  method ValidateCsvChannels(channels: seq<Row>, prior: Option<seq<Row>>, maxAttempts: int, world: nat -> nat -> Probe)
    returns (written: Result<Option<seq<Row>>, string>, all: seq<Row>, validated: seq<string>,
             statuses: seq<string>, pauses: nat)
    requires HasUsernames(channels)
    requires channels != [] ==> StatusRowsNamed(FileRows(prior)) && HasInputColumns(NotYetProcessed(channels, prior))
    ensures channels == [] ==> written == Success(None) && validated == []
    ensures |statuses| == |validated|
    // a channel with a prior status is never validated again
    ensures forall k :: 0 <= k < |validated| ==> channels != [] && PriorStatus(prior, validated[k]).None?
    ensures forall k :: 0 <= k < |statuses| ==> statuses[k] == StatusAfter(maxAttempts, world(k))
    // the run stops at the first channel whose driver does not start
    ensures forall k :: 0 <= k < |validated| ==> !Ending(maxAttempts, world(k)).Crashed?
    ensures written.Failure? ==> Ending(maxAttempts, world(|validated|)).Crashed?
    ensures written.Failure? ==> written.error == Ending(maxAttempts, world(|validated|)).reason
    // the crashing channel is the next queued one
    ensures written.Failure? ==>
              && channels != [] && |validated| < |NotYetProcessed(channels, prior)|
              && validated == Usernames(NotYetProcessed(channels, prior)[..|validated|])
    ensures written.Failure? ==> pauses == |validated|
    ensures written.Success? ==> pauses == if |validated| == 0 then 0 else |validated| - 1
    ensures written.Success? && channels != [] ==>
              && written.value == WriteSortedCsv(all)
              && validated == Usernames(NotYetProcessed(channels, prior))
              && |all| == |channels|
              && forall j :: 0 <= j < |channels| ==>
                   all[j] == match PriorStatus(prior, channels[j]["username"])
                             case Some(status) => channels[j]["status" := status]
                             case None => Recorded(channels, j, validated, statuses)
  {
    all, validated, statuses, pauses := [], [], [], 0;
    if channels == [] {
      written := Success(None);
      return;
    }
    var processed := ReadExistingResults(prior);
    var toProcess, all0 := SplitByPriorResult(channels, prior, processed);
    assert HasUsernames(all0);
    assert Usernames(all0) == Usernames(channels);
    var crash;
    crash, all, validated, statuses, pauses := ValidateQueue(toProcess, all0, maxAttempts, world);
    QueuedHaveNoPrior(channels, prior, |validated|);
    if crash.Some? {
      written := Failure(crash.value);
      return;
    }
    assert toProcess[..|toProcess|] == toProcess;
    forall j | 0 <= j < |channels| ensures all[j] == match PriorStatus(prior, channels[j]["username"])
                                                      case Some(status) => channels[j]["status" := status]
                                                      case None => Recorded(channels, j, validated, statuses)
    {
      RecordedFromInput(channels, prior, all0, validated, statuses, j);
    }
    written := Success(WriteSortedCsv(all));
  }
}

=== FILE: quick_validator.dfy ===
/** The archived quick validator: how each command-line channel becomes a
    username and a profile URL, the loop over the channels, and the
    summary's split of the results by `is_valid`. */
module QuickValidator {
  import opened Wrappers
  import opened Text
  import opened AttemptClassifier
  import opened RetryController
  import opened Records

  /** The username and profile URL validated for one channel argument. */
  datatype Target = Target(username: string, url: string)


  /** A channel given as a URL (it starts with "http") is used as the URL;
      its username is the text after the last '@' up to the first '?', or
      "unknown" when there is no '@'.  Any other channel is a username: its
      '@' characters are removed and the URL is built from it. */
  function DeriveTarget(channel: string): (r: Target)
    ensures StartsWith(channel, "http") ==> r.url == channel
    ensures StartsWith(channel, "http") && '@' !in channel ==> r.username == "unknown"
    ensures !StartsWith(channel, "http") ==> r.url == ProfilePrefix + r.username
    ensures '@' !in r.username
  {
    if StartsWith(channel, "http") then
      if '@' in channel then
        var last := LastPiece(channel, '@');
        LastPieceFacts(channel, '@');
        FirstPieceFacts(last, '?');
        Target(FirstPiece(last, '?'), channel)
      else
        Target("unknown", channel)
    else
      var username := RemoveChars(channel, {'@'});
      RemoveCharsMembers(channel, {'@'});
      Target(username, ProfilePrefix + username)
  }

  /** `u` is the text of `channel` that follows its last '@', cut at the
      first '?'. */
  ghost predicate UsernameAfterLastAt(channel: string, u: string) {
    exists i :: AtBefore(channel, u, i)
  }

  /** The last '@' of `channel` is at `i` and `u` follows it up to the end or
      a '?'. */
  predicate AtBefore(channel: string, u: string, i: int) {
    && 0 <= i < |channel| && channel[i] == '@' && '@' !in channel[i + 1..]
    && StartsWith(channel[i + 1..], u)
    && (i + 1 + |u| == |channel| || channel[i + 1 + |u|] == '?')
  }

  /** A URL with an '@': the URL is kept and the username is the text after
      its last '@', up to the first '?'. */
  lemma DeriveFromUrl(channel: string)
    requires StartsWith(channel, "http") && '@' in channel
    ensures DeriveTarget(channel).url == channel
    ensures '@' !in DeriveTarget(channel).username && '?' !in DeriveTarget(channel).username
    ensures UsernameAfterLastAt(channel, DeriveTarget(channel).username)
  {
    var last := LastPiece(channel, '@');
    var u := FirstPiece(last, '?');
    assert DeriveTarget(channel).username == u;
    LastPieceFacts(channel, '@');
    FirstPieceFacts(last, '?');
    var i := |channel| - |last| - 1;
    assert channel[i + 1..] == last;
    assert AtBefore(channel, u, i);
  }

  /** The last piece of `s.split(sep)`. */
  function LastPiece(s: string, sep: char): string {
    Split(s, sep)[|Split(s, sep)| - 1]
  }

  /** The first piece of `s.split(sep)`. */
  function FirstPiece(s: string, sep: char): string {
    Split(s, sep)[0]
  }

  /** When `s` holds a separator, its last piece is what follows the last one. */
  lemma LastPieceFacts(s: string, sep: char)
    requires sep in s
    ensures var last := LastPiece(s, sep);
            |last| < |s| && s[|s| - |last| - 1] == sep && s[|s| - |last|..] == last && sep !in last
  {
    SplitLast(s, sep);
    SplitSeparators(s, sep);
  }

  /** The first piece is what precedes the first separator. */
  lemma FirstPieceFacts(s: string, sep: char)
    ensures var first := FirstPiece(s, sep);
            StartsWith(s, first) && (|first| == |s| || s[|first|] == sep) && sep !in first
  {
    SplitFirst(s, sep);
    SplitSeparators(s, sep);
  }

  /** A URL without an '@' is validated under the username "unknown". */
  lemma DeriveFromUrlWithoutAt(channel: string)
    requires StartsWith(channel, "http") && '@' !in channel
    ensures DeriveTarget(channel) == Target("unknown", channel)
  {
  }

  /** A plain username loses its '@' characters and only those: what is
      left is the input with its other characters in order and as often as
      they occur.  The URL is the profile URL of what is left. */
  lemma DeriveFromName(channel: string)
    requires !StartsWith(channel, "http")
    ensures DeriveTarget(channel).url == ProfilePrefix + DeriveTarget(channel).username
    ensures '@' !in DeriveTarget(channel).username
    ensures IsSubsequence(DeriveTarget(channel).username, channel)
    ensures forall c :: c != '@' ==> multiset(DeriveTarget(channel).username)[c] == multiset(channel)[c]
  {
    RemoveCharsIsSubsequence(channel, {'@'});
    RemoveCharsMembers(channel, {'@'});
    forall c ensures multiset(DeriveTarget(channel).username)[c] == if c == '@' then 0 else multiset(channel)[c] {
      RemoveCharsCount(channel, {'@'}, c);
    }
  }

  /** A plain username without '@' or '?' that does not itself start with
      "http" survives the trip through its profile URL: deriving the target
      of that URL gives the same username and URL back. */
  lemma UrlRoundTrip(username: string)
    requires '@' !in username && '?' !in username && !StartsWith(username, "http")
    ensures DeriveTarget(ProfilePrefix + username) == DeriveTarget(username)
  {
    var url := ProfilePrefix + username;
    ProfileUrlPieces(username);
    assert StartsWith(url, "http") by {
      assert url[..4] == Site[..4];
    }
    SplitSeparators(username, '?');
    RemoveCharsAbsent(username, {'@'});
  }

  /** The profile URL of a name without '@' splits at '@' into the site and the name. */
  lemma ProfileUrlPieces(username: string)
    requires '@' !in username
    ensures '@' in ProfilePrefix + username
    ensures Split(ProfilePrefix + username, '@') == [Site, username]
    ensures LastPiece(ProfilePrefix + username, '@') == username
  {
    var url := ProfilePrefix + username;
    assert url == Site + ['@'] + username;
    assert '@' !in Site;
    assert url[|Site|] == '@';
    SplitAfterPiece(Site, username, '@');
    SplitSeparators(username, '@');
  }

  /** A bare name that happens to start with "http" is taken for a URL:
      it is opened as it is, under the username "unknown". */
  lemma NameStartingWithHttp()
    ensures DeriveTarget("httpkid") == Target("unknown", "httpkid")
  {
    assert '@' !in "httpkid";
  }

  /** `res` is what `validate_tiktok_channel` reports for `channel` when its
      attempts observe `world`: the derived username and URL, and the status
      `is_valid`, message and time of the deciding attempt, or UNDEFINED with
      the exhaustion message and time 0 when every attempt was indefinite. */
  predicate Reports(res: Resolution, channel: string, maxAttempts: int, world: nat -> Probe) {
    && res.username == DeriveTarget(channel).username
    && res.url == DeriveTarget(channel).url
    && (Ending(maxAttempts, world).Decided? ==>
          && res.status == Ending(maxAttempts, world).result.status
          && res.isValid == Ending(maxAttempts, world).result.isValid
          && res.message == Ending(maxAttempts, world).result.message
          && res.millis == Ending(maxAttempts, world).millis)
    && (Ending(maxAttempts, world).Exhausted? ==>
          && res.status == UndefinedStatus && res.isValid == None
          && res.message == ExhaustedMessage(maxAttempts) && res.millis == 0)
  }

  /** One iteration of `validate_channels`: derive the target, then validate it. */
  method ValidateOne(channel: string, maxAttempts: int, world: nat -> Probe) returns (r: Result<Resolution, string>)
    ensures r.Failure? <==> Ending(maxAttempts, world).Crashed?
    ensures r.Failure? ==> r.error == Ending(maxAttempts, world).reason
    ensures r.Success? ==> Reports(r.value, channel, maxAttempts, world)
  {
    var target := DeriveTarget(channel);
    var attempts, sleeps, drivers, quits;
    r, attempts, sleeps, drivers, quits := QuickValidateChannel(target.username, target.url, maxAttempts, world);
  }

  /** `validate_channels`: one resolution per channel, in order, with a
      2-second pause between consecutive channels.  `world(i)` drives the
      retry loop of channel `i`.  An exception from starting a driver ends
      the run (`Failure`). */
  method ValidateChannels(channels: seq<string>, maxAttempts: int, world: nat -> nat -> Probe)
    returns (results: Result<seq<Resolution>, string>, pauses: nat)
    ensures results.Success? <==> forall i :: 0 <= i < |channels| ==> !Ending(maxAttempts, world(i)).Crashed?
    ensures results.Failure? ==>
              exists i :: && 0 <= i < |channels|
                          && (forall k :: 0 <= k < i ==> !Ending(maxAttempts, world(k)).Crashed?)
                          && Ending(maxAttempts, world(i)).Crashed?
                          && results.error == Ending(maxAttempts, world(i)).reason
    ensures results.Success? ==> |results.value| == |channels|
    ensures results.Success? ==> pauses == if |channels| == 0 then 0 else |channels| - 1
    ensures results.Success? ==> forall i :: 0 <= i < |channels| ==>
              Reports(results.value[i], channels[i], maxAttempts, world(i))
  {
    var done: seq<Resolution> := [];
    pauses := 0;
    for i := 0 to |channels|
      invariant |done| == i
      invariant forall k :: 0 <= k < i ==> !Ending(maxAttempts, world(k)).Crashed?
      invariant pauses == if i == |channels| && i > 0 then i - 1 else i
      invariant forall k :: 0 <= k < i ==> Reports(done[k], channels[k], maxAttempts, world(k))
    {
      var crashed;
      crashed, done := ValidateNext(channels, i, maxAttempts, world, done);
      if crashed.Some? {
        results := Failure(crashed.value);
        assert 0 <= i < |channels| && Ending(maxAttempts, world(i)).Crashed?;
        return;
      }
      if i + 1 < |channels| {
        pauses := pauses + 1;
      }
    }
    results := Success(done);
  }

  /** Iteration `i` of `validate_channels`: the resolution of channel `i` is
      appended, unless starting a driver failed. */
  method ValidateNext(channels: seq<string>, i: nat, maxAttempts: int, world: nat -> nat -> Probe, done: seq<Resolution>)
    returns (crashed: Option<string>, done': seq<Resolution>)
    requires i < |channels| && |done| == i
    requires forall k :: 0 <= k < i ==> Reports(done[k], channels[k], maxAttempts, world(k))
    ensures crashed.Some? <==> Ending(maxAttempts, world(i)).Crashed?
    ensures crashed.Some? ==> crashed.value == Ending(maxAttempts, world(i)).reason
    ensures crashed.None? ==> |done'| == i + 1
    ensures crashed.None? ==> forall k :: 0 <= k < i + 1 ==> Reports(done'[k], channels[k], maxAttempts, world(k))
  {
    var r := ValidateOne(channels[i], maxAttempts, world(i));
    if r.Failure? {
      return Some(r.error), done;
    }
    crashed, done' := None, done + [r.value];
    assert forall k :: 0 <= k < i ==> done'[k] == done[k];
  }

  /** The results whose `is_valid` is `v`, in order: `True` for the valid
      list, `False` for the invalid list, `None` for the undefined list. */
  function WithValidity(results: seq<Resolution>, v: Option<bool>): (r: seq<Resolution>)
    ensures |r| <= |results|
    ensures forall k :: 0 <= k < |r| ==> r[k].isValid == v
  {
    if results == [] then []
    else (if results[0].isValid == v then [results[0]] else []) + WithValidity(results[1..], v)
  }

  /** One step of the recursion of `WithValidity`. */
  lemma WithValidityUnfold(results: seq<Resolution>, v: Option<bool>)
    requires results != []
    ensures WithValidity(results, v) == (if results[0].isValid == v then [results[0]] else []) + WithValidity(results[1..], v)
  {
  }

  /** The three summary lists share out the results: together they hold
      each result exactly once. */
  lemma {:induction false} SummaryPartition(results: seq<Resolution>)
    ensures multiset(WithValidity(results, Some(true))) + multiset(WithValidity(results, Some(false)))
            + multiset(WithValidity(results, None)) == multiset(results)
  {
    if results != [] {
      var h, t := results[0], results[1..];
      SummaryPartition(t);
      PartitionCons(h, t);
      assert results == [h] + t;
    }
  }

  /** Putting `h` in front of `t` adds `h` to exactly one summary list. */
  lemma PartitionCons(h: Resolution, t: seq<Resolution>)
    ensures multiset(WithValidity([h] + t, Some(true))) + multiset(WithValidity([h] + t, Some(false)))
            + multiset(WithValidity([h] + t, None))
            == multiset{h} + (multiset(WithValidity(t, Some(true))) + multiset(WithValidity(t, Some(false)))
                              + multiset(WithValidity(t, None)))
  {
    var vt, vf, vn := WithValidity(t, Some(true)), WithValidity(t, Some(false)), WithValidity(t, None);
    var mt, mf, mn := multiset(vt), multiset(vf), multiset(vn);
    WithValidityCons(h, t, Some(true));
    WithValidityCons(h, t, Some(false));
    WithValidityCons(h, t, None);
    AddToOne(h, mt, mf, mn);
    var wt, wf, wn := multiset(WithValidity([h] + t, Some(true))), multiset(WithValidity([h] + t, Some(false))),
                      multiset(WithValidity([h] + t, None));
    match h.isValid
    case Some(true) =>
      assert wt == multiset{h} + mt && wf == mf && wn == mn;
    case Some(false) =>
      assert wt == mt && wf == multiset{h} + mf && wn == mn;
    case None =>
      assert wt == mt && wf == mf && wn == multiset{h} + mn;
  }

  /** `WithValidity` of a list with `h` in front, as a multiset. */
  lemma WithValidityCons(h: Resolution, t: seq<Resolution>, v: Option<bool>)
    ensures multiset(WithValidity([h] + t, v))
            == (if h.isValid == v then multiset{h} else multiset{}) + multiset(WithValidity(t, v))
  {
    WithValidityUnfold([h] + t, v);
    assert ([h] + t)[0] == h && ([h] + t)[1..] == t;
  }

  /** Adding `x` to one of three multisets adds it to their sum. */
  lemma AddToOne<T>(x: T, a: multiset<T>, b: multiset<T>, c: multiset<T>)
    ensures (multiset{x} + a) + b + c == multiset{x} + (a + b + c)
    ensures a + (multiset{x} + b) + c == multiset{x} + (a + b + c)
    ensures a + b + (multiset{x} + c) == multiset{x} + (a + b + c)
  {
  }

  /** The counts printed in the summary add up to the number of results. */
  lemma SummaryCounts(results: seq<Resolution>)
    ensures |WithValidity(results, Some(true))| + |WithValidity(results, Some(false))|
            + |WithValidity(results, None)| == |results|
  {
    SummaryPartition(results);
    assert |multiset(results)| == |results|;
  }
}

=== FILE: records.dfy ===
/** CSV rows as the scripts handle them: a dictionary from column name to
    cell text, as `csv.DictReader` produces and `csv.DictWriter` consumes. */
module Records {
  import opened Wrappers

  type Row = map<string, string>

  /** `row.get(key, default)`. */
  function Get(row: Row, key: string, default: string): (r: string)
    ensures key in row ==> r == row[key]
    ensures key !in row ==> r == default
  {
    if key in row then row[key] else default
  }

  /** Every row has a username column. */
  predicate HasUsernames(rows: seq<Row>) {
    forall i :: 0 <= i < |rows| ==> "username" in rows[i]
  }

  /** The rows of a CSV file, or none when the file does not exist. */
  function FileRows(file: Option<seq<Row>>): seq<Row> {
    match file
    case None => []
    case Some(rows) => rows
  }

  /** The TikTok site, and the prefix of a profile URL. */
  const Site: string := "https://www.tiktok.com/"
  const ProfilePrefix: string := Site + "@"
}

=== FILE: retry.dfy ===
/** The retry loop of `validate_tiktok_channel`, in the current validator and
    in its archived copy.  The loop body is the same in both files; they differ
    only in how a definitive result's status is reported.

    The browser is replaced by an oracle `world`: `world(k)` is what the
    attempt with 0-based index `k` observes.  Sleeps and started/quit
    drivers are counted instead of performed. */
module RetryController {
  import opened Wrappers
  import opened Text
  import opened AttemptClassifier

  /** How the loop ended: a definitive attempt result with that attempt's
      duration, all attempts used up, or an exception from starting a
      driver, which leaves the loop and the function. */
  datatype LoopEnd = Decided(result: AttemptResult, millis: nat) | Exhausted | Crashed(reason: string)

  /** What `validate_tiktok_channel` returns: username, url, status, message,
      `is_valid` and `time_taken` (in milliseconds). */
  datatype Resolution = Resolution(username: string, url: string, status: string, message: string,
                                   isValid: Option<bool>, millis: nat)

  /** The number of iterations of `range(1, max_attempts + 1)`. */
  function Budget(maxAttempts: int): nat {
    if maxAttempts < 0 then 0 else maxAttempts
  }

  /** The 0-based index of the first of the first `n` attempts that ends the
      loop, if there is one. */
  function FirstEnding(world: nat -> Probe, n: nat): (r: Option<nat>)
    ensures r.Some? ==> r.value < n && EndsRetries(world(r.value))
    ensures r.Some? ==> forall k :: 0 <= k < r.value ==> !EndsRetries(world(k))
    ensures r.None? <==> forall k :: 0 <= k < n ==> !EndsRetries(world(k))
  {
    if n == 0 then None
    else match FirstEnding(world, n - 1)
      case Some(k) => Some(k)
      case None => if EndsRetries(world(n - 1)) then Some(n - 1) else None
  }

  /** How many attempts the loop makes: every attempt before the last one
      was NONE or ERROR, and the loop stops short of its budget only on an
      attempt that ends it. */
  function AttemptsMade(maxAttempts: int, world: nat -> Probe): (r: nat)
    ensures r <= Budget(maxAttempts)
    ensures forall k :: 0 <= k < r - 1 ==> !EndsRetries(world(k))
    ensures r < Budget(maxAttempts) ==> 0 < r && EndsRetries(world(r - 1))
  {
    match FirstEnding(world, Budget(maxAttempts))
    case Some(k) => k + 1
    case None => Budget(maxAttempts)
  }

  /** How the loop ends: exhausted exactly when no attempt within the budget
      ends it; otherwise by the last attempt made, which crashed exactly when
      that attempt's driver failed to start, and which was definitive when it
      did not. */
  function Ending(maxAttempts: int, world: nat -> Probe): (r: LoopEnd)
    ensures r.Exhausted? <==> forall k :: 0 <= k < Budget(maxAttempts) ==> !EndsRetries(world(k))
    ensures !r.Exhausted? ==> 0 < AttemptsMade(maxAttempts, world)
    ensures !r.Exhausted? ==>
              var last := world(AttemptsMade(maxAttempts, world) - 1);
              && EndsRetries(last)
              && (r.Crashed? <==> last.DriverStartFailure?)
              && (r.Crashed? ==> r.reason == last.reason)
              && (r.Decided? ==> r.millis == last.millis && IsDefinitive(r.result))
  {
    match FirstEnding(world, Budget(maxAttempts))
    case None => Exhausted
    case Some(k) =>
      match world(k)
      case DriverStartFailure(e) => Crashed(e)
      case Session(load, errorContainer, userTitle, ms) => Decided(Classify(load, errorContainer, userTitle), ms)
  }

  /** The loop: attempt after attempt until one is definitive or the budget
      is spent, with one 3-second sleep after every attempt but the last.
      Each attempt whose driver started quits it once (the `finally` clause). */
  method RunAttempts(maxAttempts: int, world: nat -> Probe)
    returns (end: LoopEnd, attempts: nat, sleeps: nat, drivers: nat, quits: nat)
    ensures attempts <= Budget(maxAttempts)
    ensures attempts == AttemptsMade(maxAttempts, world)
    ensures end == Ending(maxAttempts, world)
    ensures end.Decided? ==> IsDefinitive(end.result)
    // only NONE and ERROR attempts came before the last one
    ensures forall k :: 0 <= k < attempts - 1 ==> !EndsRetries(world(k))
    ensures sleeps == if attempts == 0 then 0 else attempts - 1
    ensures quits == drivers
    ensures drivers == if end.Crashed? then attempts - 1 else attempts
  {
    attempts, sleeps, drivers, quits := 0, 0, 0, 0;
    var attempt := 1;
    while attempt <= maxAttempts
      invariant 1 <= attempt <= Budget(maxAttempts) + 1
      invariant attempts == attempt - 1
      invariant forall k :: 0 <= k < attempt - 1 ==> !EndsRetries(world(k))
      invariant sleeps == if attempt <= maxAttempts || attempt == 1 then attempt - 1 else attempt - 2
      invariant drivers == attempts && quits == attempts
    {
      attempts := attempt;
      match world(attempt - 1) {
        case DriverStartFailure(e) =>
          end := Crashed(e);
          return;
        case Session(load, errorContainer, userTitle, ms) =>
          drivers := drivers + 1;
          var result := Classify(load, errorContainer, userTitle);
          quits := quits + 1;
          if result.rule == ValidRule || result.rule == InvalidRule {
            end := Decided(result, ms);
            return;
          }
      }
      if attempt < maxAttempts {
        sleeps := sleeps + 1;
      }
      attempt := attempt + 1;
    }
    end := Exhausted;
  }

  /** The message of an exhausted loop: a fixed text around the numeral of
      `max_attempts`, which reads back as `max_attempts`. */
  function ExhaustedMessage(maxAttempts: int): (r: string)
    ensures |r| > |ExhaustedPrefix| + |ExhaustedSuffix|
    ensures r[..|ExhaustedPrefix|] == ExhaustedPrefix && r[|r| - |ExhaustedSuffix|..] == ExhaustedSuffix
    ensures var numeral := r[|ExhaustedPrefix|..|r| - |ExhaustedSuffix|];
            IsNumeral(numeral) && ParseInt(numeral) == maxAttempts
  {
    var numeral := IntToString(maxAttempts);
    var r := ExhaustedPrefix + numeral + ExhaustedSuffix;
    assert r[|ExhaustedPrefix|..|r| - |ExhaustedSuffix|] == numeral;
    r
  }

  const ExhaustedPrefix: string := "No definitive result after "
  const ExhaustedSuffix: string := " attempts"

  /** Exhausted loops with different budgets give different messages. */
  lemma ExhaustedMessageNamesBudget(a: int, b: int)
    requires ExhaustedMessage(a) == ExhaustedMessage(b)
    ensures a == b
  {
  }

  /** `status_map.get(status, "undefined")` of the current validator. */
  function CsvStatus(raw: string): (r: string)
    ensures raw == ValidStatus ==> r == "valid"
    ensures raw == InvalidStatus ==> r == "invalid"
    ensures raw != ValidStatus && raw != InvalidStatus ==> r == "undefined"
  {
    if raw == ValidStatus then "valid"
    else if raw == InvalidStatus then "invalid"
    else if raw == "❓ UNDEFINED" then "undefined"
    else "undefined"
  }

  /** `validate_tiktok_channel` of the current validator: the statuses are
      the CSV values "valid", "invalid" and "undefined". */
  method ValidateChannel(username: string, profileUrl: string, maxAttempts: int, world: nat -> Probe)
    returns (r: Result<Resolution, string>, attempts: nat, sleeps: nat, drivers: nat, quits: nat)
    ensures attempts == AttemptsMade(maxAttempts, world) && attempts <= Budget(maxAttempts)
    ensures sleeps == if attempts == 0 then 0 else attempts - 1
    ensures quits == drivers
    ensures r.Failure? <==> Ending(maxAttempts, world).Crashed?
    ensures r.Failure? ==> r.error == Ending(maxAttempts, world).reason
    ensures r.Success? ==> r.value.username == username && r.value.url == profileUrl
    ensures r.Success? ==> r.value.status in {"valid", "invalid", "undefined"}
    ensures r.Success? ==> (r.value.status == "valid" <==> r.value.isValid == Some(true))
    ensures r.Success? ==> (r.value.status == "invalid" <==> r.value.isValid == Some(false))
    ensures r.Success? ==> (r.value.status == "undefined" <==> r.value.isValid == None)
    ensures Ending(maxAttempts, world).Decided? ==>
              r == Success(Resolution(username, profileUrl, CsvStatus(Ending(maxAttempts, world).result.status),
                                      Ending(maxAttempts, world).result.message,
                                      Ending(maxAttempts, world).result.isValid, Ending(maxAttempts, world).millis))
    ensures Ending(maxAttempts, world).Exhausted? ==>
              r == Success(Resolution(username, profileUrl, "undefined", ExhaustedMessage(maxAttempts), None, 0))
  {
    var end;
    end, attempts, sleeps, drivers, quits := RunAttempts(maxAttempts, world);
    match end
    case Crashed(e) => r := Failure(e);
    case Decided(result, ms) =>
      r := Success(Resolution(username, profileUrl, CsvStatus(result.status), result.message, result.isValid, ms));
    case Exhausted =>
      r := Success(Resolution(username, profileUrl, "undefined", ExhaustedMessage(maxAttempts), None, 0));
  }

  const UndefinedStatus: string := "❓ UNDEFINED"

  /** `validate_tiktok_channel` of the archived validator: the statuses are
      the attempt's own "✅ VALID" / "❌ INVALID", or "❓ UNDEFINED". */
  method QuickValidateChannel(username: string, url: string, maxAttempts: int, world: nat -> Probe)
    returns (r: Result<Resolution, string>, attempts: nat, sleeps: nat, drivers: nat, quits: nat)
    ensures attempts == AttemptsMade(maxAttempts, world) && attempts <= Budget(maxAttempts)
    ensures sleeps == if attempts == 0 then 0 else attempts - 1
    ensures quits == drivers
    ensures r.Failure? <==> Ending(maxAttempts, world).Crashed?
    ensures r.Failure? ==> r.error == Ending(maxAttempts, world).reason
    ensures r.Success? ==> r.value.username == username && r.value.url == url
    ensures r.Success? ==> r.value.status in {ValidStatus, InvalidStatus, UndefinedStatus}
    ensures r.Success? ==> (r.value.status == ValidStatus <==> r.value.isValid == Some(true))
    ensures r.Success? ==> (r.value.status == InvalidStatus <==> r.value.isValid == Some(false))
    ensures r.Success? ==> (r.value.status == UndefinedStatus <==> r.value.isValid == None)
    ensures Ending(maxAttempts, world).Decided? ==>
              r == Success(Resolution(username, url, Ending(maxAttempts, world).result.status,
                                      Ending(maxAttempts, world).result.message,
                                      Ending(maxAttempts, world).result.isValid, Ending(maxAttempts, world).millis))
    ensures Ending(maxAttempts, world).Exhausted? ==>
              r == Success(Resolution(username, url, UndefinedStatus, ExhaustedMessage(maxAttempts), None, 0))
  {
    var end;
    end, attempts, sleeps, drivers, quits := RunAttempts(maxAttempts, world);
    match end
    case Crashed(e) => r := Failure(e);
    case Decided(result, ms) =>
      r := Success(Resolution(username, url, result.status, result.message, result.isValid, ms));
    case Exhausted =>
      r := Success(Resolution(username, url, UndefinedStatus, ExhaustedMessage(maxAttempts), None, 0));
  }

  /** Early exit: when attempt `k` is the first to end the loop, exactly
      `k + 1` attempts are made, whatever the later attempts would show. */
  lemma FirstDefinitiveStops(maxAttempts: int, world: nat -> Probe, k: nat)
    requires k < Budget(maxAttempts) && EndsRetries(world(k))
    requires forall j :: 0 <= j < k ==> !EndsRetries(world(j))
    ensures AttemptsMade(maxAttempts, world) == k + 1
    ensures world(k).Session? ==> Ending(maxAttempts, world).Decided?
  {
  }

  /** Bounded retries: when every attempt is NONE or ERROR, exactly
      `max_attempts` attempts are made and the result is undefined. */
  lemma IndefiniteAttemptsExhaust(maxAttempts: int, world: nat -> Probe)
    requires forall k :: 0 <= k < Budget(maxAttempts) ==> !EndsRetries(world(k))
    ensures AttemptsMade(maxAttempts, world) == Budget(maxAttempts)
    ensures Ending(maxAttempts, world) == Exhausted
  {
  }
}

=== FILE: status_sort.dfy ===
/** The ordering of `write_sorted_csv`: Python's stable `sorted` with a key
    that ranks each row's status, valid (1) before undefined (2) before
    invalid (3).  The stable sort is modelled by insertion sort over an
    arbitrary key with values 1 to 3. */
module StatusReport {
  import opened Wrappers
  import opened Records

  /** `status_order.get(row.get("status", "undefined"), 3)`. */
  function Rank(row: Row): (r: nat)
    ensures 1 <= r <= 3
  {
    var status := Get(row, "status", "undefined");
    if status == "valid" then 1 else if status == "undefined" then 2 else 3
  }

  /** Which rows rank where: only "valid" ranks first, a missing status
      ranks with "undefined", and every other value, "" included, ranks
      with "invalid". */
  lemma RankMeaning(row: Row)
    ensures Rank(row) == 1 <==> "status" in row && row["status"] == "valid"
    ensures Rank(row) == 2 <==> "status" !in row || row["status"] == "undefined"
    ensures Rank(row) == 3 <==> "status" in row && row["status"] != "valid" && row["status"] != "undefined"
  {
  }

  /** Places `x` before the first element whose key is not smaller. */
  function Insert<T>(x: T, s: seq<T>, key: T -> nat): seq<T> {
    if s == [] then [x]
    else if key(x) <= key(s[0]) then [x] + s
    else [s[0]] + Insert(x, s[1..], key)
  }

  /** Insertion sort; an element taken earlier from the input ends up before
      the elements with the same key taken later, which makes it stable. */
  function SortByKey<T>(s: seq<T>, key: T -> nat): seq<T> {
    if s == [] then [] else Insert(s[0], SortByKey(s[1..], key), key)
  }

  /** The elements with key `k`, in input order. */
  function WithKey<T>(s: seq<T>, key: T -> nat, k: nat): (r: seq<T>)
    ensures forall i :: 0 <= i < |r| ==> key(r[i]) == k
    ensures |r| <= |s|
  {
    if s == [] then []
    else if key(s[0]) == k then [s[0]] + WithKey(s[1..], key, k)
    else WithKey(s[1..], key, k)
  }

  predicate SortedByKey<T>(s: seq<T>, key: T -> nat) {
    forall i, j :: 0 <= i < j < |s| ==> key(s[i]) <= key(s[j])
  }

  /** The keys of all elements of `s` lie between 1 and 3. */
  predicate ThreeRanks<T>(s: seq<T>, key: T -> nat) {
    forall i :: 0 <= i < |s| ==> 1 <= key(s[i]) <= 3
  }

  lemma {:induction false} InsertBetween<T>(x: T, p: seq<T>, q: seq<T>, key: T -> nat)
    requires forall i :: 0 <= i < |p| ==> key(p[i]) < key(x)
    requires q == [] || key(x) <= key(q[0])
    ensures Insert(x, p + q, key) == p + [x] + q
  {
    if p == [] {
      assert p + q == q;
    } else {
      assert p + q == [p[0]] + (p[1..] + q);
      InsertBetween(x, p[1..], q, key);
      assert p + [x] + q == [p[0]] + (p[1..] + [x] + q);
    }
  }

  lemma WithKeyCons<T>(x: T, t: seq<T>, key: T -> nat, k: nat)
    ensures WithKey([x] + t, key, k) == if key(x) == k then [x] + WithKey(t, key, k) else WithKey(t, key, k)
  {
    assert ([x] + t)[0] == x && ([x] + t)[1..] == t;
  }

  /** Inserting into the grouped form of `t` gives the grouped form of `[x] + t`. */
  lemma InsertIntoGroups<T>(x: T, t: seq<T>, key: T -> nat)
    requires 1 <= key(x) <= 3
    ensures Insert(x, WithKey(t, key, 1) + WithKey(t, key, 2) + WithKey(t, key, 3), key)
            == WithKey([x] + t, key, 1) + WithKey([x] + t, key, 2) + WithKey([x] + t, key, 3)
  {
    var b1, b2, b3 := WithKey(t, key, 1), WithKey(t, key, 2), WithKey(t, key, 3);
    WithKeyCons(x, t, key, 1);
    WithKeyCons(x, t, key, 2);
    WithKeyCons(x, t, key, 3);
    if key(x) == 1 {
      InsertFirst(x, b1, b2, b3, key);
    } else if key(x) == 2 {
      InsertSecond(x, b1, b2, b3, key);
    } else {
      InsertThird(x, b1, b2, b3, key);
    }
  }

  lemma InsertFirst<T>(x: T, b1: seq<T>, b2: seq<T>, b3: seq<T>, key: T -> nat)
    requires key(x) == 1
    requires forall i :: 0 <= i < |b1| ==> key(b1[i]) == 1
    requires forall i :: 0 <= i < |b2| ==> key(b2[i]) == 2
    requires forall i :: 0 <= i < |b3| ==> key(b3[i]) == 3
    ensures Insert(x, b1 + b2 + b3, key) == [x] + b1 + b2 + b3
  {
    var q := b1 + b2 + b3;
    assert q == [] || key(x) <= key(q[0]) by {
      if q != [] {
        if b1 != [] { assert q[0] == b1[0]; }
        else if b2 != [] { assert q[0] == b2[0]; }
        else { assert q == b3; }
      }
    }
    InsertAtFront(x, q, key);
  }

  lemma InsertAtFront<T>(x: T, q: seq<T>, key: T -> nat)
    requires q == [] || key(x) <= key(q[0])
    ensures Insert(x, q, key) == [x] + q
  {
  }

  lemma InsertSecond<T>(x: T, b1: seq<T>, b2: seq<T>, b3: seq<T>, key: T -> nat)
    requires key(x) == 2
    requires forall i :: 0 <= i < |b1| ==> key(b1[i]) == 1
    requires forall i :: 0 <= i < |b2| ==> key(b2[i]) == 2
    requires forall i :: 0 <= i < |b3| ==> key(b3[i]) == 3
    ensures Insert(x, b1 + b2 + b3, key) == b1 + ([x] + b2) + b3
  {
    HeadKeyAtLeast(b2, b3, key, 2);
    InsertBetween(x, b1, b2 + b3, key);
    Regroup(x, b1, b2, b3);
  }

  lemma InsertThird<T>(x: T, b1: seq<T>, b2: seq<T>, b3: seq<T>, key: T -> nat)
    requires key(x) == 3
    requires forall i :: 0 <= i < |b1| ==> key(b1[i]) == 1
    requires forall i :: 0 <= i < |b2| ==> key(b2[i]) == 2
    requires forall i :: 0 <= i < |b3| ==> key(b3[i]) == 3
    ensures Insert(x, b1 + b2 + b3, key) == b1 + b2 + ([x] + b3)
  {
    KeysBelow(b1, b2, key, 3);
    InsertBetween(x, b1 + b2, b3, key);
    Regroup(x, b1, b2, b3);
  }

  /** The first element of `b2 + b3` has a key of at least `k`. */
  lemma HeadKeyAtLeast<T>(b2: seq<T>, b3: seq<T>, key: T -> nat, k: nat)
    requires forall i :: 0 <= i < |b2| ==> key(b2[i]) >= k
    requires forall i :: 0 <= i < |b3| ==> key(b3[i]) >= k
    ensures b2 + b3 == [] || k <= key((b2 + b3)[0])
  {
    if b2 + b3 != [] {
      if b2 != [] { assert (b2 + b3)[0] == b2[0]; } else { assert b2 + b3 == b3; }
    }
  }

  /** Every element of `b1 + b2` has a key below `k`. */
  lemma KeysBelow<T>(b1: seq<T>, b2: seq<T>, key: T -> nat, k: nat)
    requires forall i :: 0 <= i < |b1| ==> key(b1[i]) < k
    requires forall i :: 0 <= i < |b2| ==> key(b2[i]) < k
    ensures forall i :: 0 <= i < |b1 + b2| ==> key((b1 + b2)[i]) < k
  {
    forall i | 0 <= i < |b1 + b2| ensures key((b1 + b2)[i]) < k {
      if i >= |b1| { assert (b1 + b2)[i] == b2[i - |b1|]; } else { assert (b1 + b2)[i] == b1[i]; }
    }
  }

  lemma Regroup<T>(x: T, b1: seq<T>, b2: seq<T>, b3: seq<T>)
    ensures b1 + (b2 + b3) == b1 + b2 + b3
    ensures b1 + [x] + (b2 + b3) == b1 + ([x] + b2) + b3
    ensures b1 + b2 + [x] + b3 == b1 + b2 + ([x] + b3)
  {
  }

  /** The sort's output is the key-1 elements, then the key-2 elements, then
      the key-3 elements, each group in input order: the one stable ordering. */
  lemma {:induction false} SortIsGroupedByKey<T>(s: seq<T>, key: T -> nat)
    requires ThreeRanks(s, key)
    ensures SortByKey(s, key) == WithKey(s, key, 1) + WithKey(s, key, 2) + WithKey(s, key, 3)
  {
    if s != [] {
      var x, t := s[0], s[1..];
      assert ThreeRanks(t, key) by { forall i | 0 <= i < |t| ensures 1 <= key(t[i]) <= 3 { assert t[i] == s[i + 1]; } }
      SortIsGroupedByKey(t, key);
      InsertIntoGroups(x, t, key);
      assert s == [x] + t;
    }
  }

  lemma {:induction false} WithKeyAppend<T>(a: seq<T>, b: seq<T>, key: T -> nat, k: nat)
    ensures WithKey(a + b, key, k) == WithKey(a, key, k) + WithKey(b, key, k)
  {
    if a == [] {
      assert a + b == b;
    } else {
      assert (a + b)[0] == a[0] && (a + b)[1..] == a[1..] + b;
      WithKeyAppend(a[1..], b, key, k);
    }
  }

  lemma {:induction false} WithKeyOfGroup<T>(s: seq<T>, key: T -> nat, j: nat, k: nat)
    ensures WithKey(WithKey(s, key, j), key, k) == if j == k then WithKey(s, key, j) else []
  {
    if s != [] {
      WithKeyOfGroup(s[1..], key, j, k);
      if key(s[0]) == j {
        WithKeyCons(s[0], WithKey(s[1..], key, j), key, k);
      }
    }
  }

  lemma {:induction false} WithKeyOutOfRange<T>(s: seq<T>, key: T -> nat, k: nat)
    requires ThreeRanks(s, key) && k != 1 && k != 2 && k != 3
    ensures WithKey(s, key, k) == []
  {
    if s != [] {
      assert ThreeRanks(s[1..], key) by { forall i | 0 <= i < |s| - 1 ensures 1 <= key(s[1..][i]) <= 3 { assert s[1..][i] == s[i + 1]; } }
      WithKeyOutOfRange(s[1..], key, k);
    }
  }

  lemma {:induction false} GroupsArePermutation<T>(s: seq<T>, key: T -> nat)
    requires ThreeRanks(s, key)
    ensures multiset(WithKey(s, key, 1) + WithKey(s, key, 2) + WithKey(s, key, 3)) == multiset(s)
  {
    if s != [] {
      var x, t := s[0], s[1..];
      assert ThreeRanks(t, key) by { forall i | 0 <= i < |t| ensures 1 <= key(t[i]) <= 3 { assert t[i] == s[i + 1]; } }
      GroupsArePermutation(t, key);
      assert s == [x] + t;
      GroupCons(x, t, key);
    }
  }

  /** Putting `x` in front of `t` adds `x` to exactly one group. */
  lemma GroupCons<T>(x: T, t: seq<T>, key: T -> nat)
    requires 1 <= key(x) <= 3
    ensures multiset(WithKey([x] + t, key, 1) + WithKey([x] + t, key, 2) + WithKey([x] + t, key, 3))
            == multiset{x} + multiset(WithKey(t, key, 1) + WithKey(t, key, 2) + WithKey(t, key, 3))
  {
    WithKeyCons(x, t, key, 1);
    WithKeyCons(x, t, key, 2);
    WithKeyCons(x, t, key, 3);
  }

  lemma GroupsAreSorted<T>(b1: seq<T>, b2: seq<T>, b3: seq<T>, key: T -> nat)
    requires forall i :: 0 <= i < |b1| ==> key(b1[i]) == 1
    requires forall i :: 0 <= i < |b2| ==> key(b2[i]) == 2
    requires forall i :: 0 <= i < |b3| ==> key(b3[i]) == 3
    ensures SortedByKey(b1 + b2 + b3, key)
  {
    var s := b1 + b2 + b3;
    forall i | 0 <= i < |s| ensures key(s[i]) == if i < |b1| then 1 else if i < |b1| + |b2| then 2 else 3 {
      if i < |b1| { assert s[i] == b1[i]; }
      else if i < |b1| + |b2| { assert s[i] == b2[i - |b1|]; }
      else { assert s[i] == b3[i - |b1| - |b2|]; }
    }
  }

  /** Stable sorting with a three-valued key: the output is ordered by key,
      is a permutation of the input, and keeps the input order among the
      elements with the same key. */
  lemma SortByKeyCorrect<T>(s: seq<T>, key: T -> nat)
    requires ThreeRanks(s, key)
    ensures SortedByKey(SortByKey(s, key), key)
    ensures multiset(SortByKey(s, key)) == multiset(s)
    ensures |SortByKey(s, key)| == |s|
    ensures forall k :: WithKey(SortByKey(s, key), key, k) == WithKey(s, key, k)
  {
    SortIsGroupedByKey(s, key);
    GroupsArePermutation(s, key);
    assert |multiset(SortByKey(s, key))| == |multiset(s)|;
    var b1, b2, b3 := WithKey(s, key, 1), WithKey(s, key, 2), WithKey(s, key, 3);
    GroupsAreSorted(b1, b2, b3, key);
    forall k ensures WithKey(SortByKey(s, key), key, k) == WithKey(s, key, k) {
      WithKeyAppend(b1 + b2, b3, key, k);
      WithKeyAppend(b1, b2, key, k);
      WithKeyOfGroup(s, key, 1, k);
      WithKeyOfGroup(s, key, 2, k);
      WithKeyOfGroup(s, key, 3, k);
      if k != 1 && k != 2 && k != 3 {
        WithKeyOutOfRange(s, key, k);
      }
    }
  }

  /** The rows sorted by status rank, as `sorted(channels, key=...)` orders them. */
  function SortByStatus(rows: seq<Row>): (r: seq<Row>)
    ensures SortedByKey(r, Rank)
    ensures multiset(r) == multiset(rows)
    ensures forall k :: WithKey(r, Rank, k) == WithKey(rows, Rank, k)
  {
    assert ThreeRanks(rows, Rank);
    SortByKeyCorrect(rows, Rank);
    SortByKey(rows, Rank)
  }

  /** `write_sorted_csv`: nothing is written for an empty row list, otherwise
      the rows sorted by status. */
  function WriteSortedCsv(channels: seq<Row>): (written: Option<seq<Row>>)
    ensures written.None? <==> channels == []
    ensures written.Some? ==> SortedByKey(written.value, Rank)
    ensures written.Some? ==> multiset(written.value) == multiset(channels)
    ensures written.Some? ==> forall k :: WithKey(written.value, Rank, k) == WithKey(channels, Rank, k)
  {
    if channels == [] then None else Some(SortByStatus(channels))
  }
}

=== FILE: text.dfy ===
/** String helpers with the semantics of the Python `str` methods the scripts
    use, restricted to the ASCII range. */
module Text {

  /** `c.lower()` for ASCII characters; other characters are left as they are. */
  function LowerChar(c: char): (r: char)
    ensures 'A' <= c <= 'Z' ==> r as int == c as int + 32
    ensures !('A' <= c <= 'Z') ==> r == c
    ensures !('A' <= r <= 'Z')
  {
    if 'A' <= c <= 'Z' then (c as int + 32) as char else c
  }

  /** `s.lower()`, character by character. */
  function Lower(s: string): (r: string)
    ensures |r| == |s|
  {
    if s == [] then [] else [LowerChar(s[0])] + Lower(s[1..])
  }

  /** Lower-casing works character by character. */
  lemma {:induction false} LowerAt(s: string, i: nat)
    requires i < |s|
    ensures Lower(s)[i] == LowerChar(s[i])
  {
    if i > 0 {
      LowerAt(s[1..], i - 1);
    }
  }

  /** `s.startswith(p)`. */
  predicate StartsWith(s: string, p: string) {
    |p| <= |s| && s[..|p|] == p
  }

  /** `t` occurs in `s` starting at index `i`. */
  predicate OccursAt(s: string, t: string, i: int) {
    0 <= i <= |s| - |t| && s[i..i + |t|] == t
  }

  /** Python's `t in s` for strings: `t` occurs as a contiguous block of `s`. */
  predicate Contains(s: string, t: string) {
    exists i :: 0 <= i <= |s| - |t| && OccursAt(s, t, i)
  }

  /** The characters Python's `str.isspace()` accepts in the ASCII range. */
  predicate IsSpace(c: char) {
    ('\t' <= c <= '\r') || ('\U{1C}' <= c <= ' ')
  }

  /** The whitespace characters are '\t', '\n', '\v', '\f', '\r', the
      separators 0x1C to 0x1F and ' ', and no others. */
  lemma IsSpaceChars(c: char)
    ensures IsSpace(c) <==> c in {'\t', '\n', '\U{0B}', '\U{0C}', '\r', '\U{1C}', '\U{1D}', '\U{1E}', '\U{1F}', ' '}
  {
  }

  /** `s.lstrip()`: the suffix of `s` left after dropping leading whitespace. */
  function StripLeading(s: string): (r: string)
    ensures |r| <= |s| && r == s[|s| - |r|..]
    ensures r == [] || !IsSpace(r[0])
  {
    if s != [] && IsSpace(s[0]) then StripLeading(s[1..]) else s
  }

  /** `s.rstrip()`: the prefix of `s` left after dropping trailing whitespace. */
  function StripTrailing(s: string): (r: string)
    ensures |r| <= |s| && r == s[..|r|]
    ensures r == [] || !IsSpace(r[|r| - 1])
  {
    if s != [] && IsSpace(s[|s| - 1]) then StripTrailing(s[..|s| - 1]) else s
  }

  /** Only whitespace is dropped from the front. */
  lemma {:induction false} StripLeadingSpaces(s: string)
    ensures forall i :: 0 <= i < |s| - |StripLeading(s)| ==> IsSpace(s[i])
  {
    if s != [] && IsSpace(s[0]) {
      StripLeadingSpaces(s[1..]);
      forall i | 1 <= i < |s| - |StripLeading(s)| ensures IsSpace(s[i]) {
        assert s[i] == s[1..][i - 1];
      }
    }
  }

  /** Only whitespace is dropped from the back. */
  lemma {:induction false} StripTrailingSpaces(s: string)
    ensures forall i :: |StripTrailing(s)| <= i < |s| ==> IsSpace(s[i])
  {
    if s != [] && IsSpace(s[|s| - 1]) {
      StripTrailingSpaces(s[..|s| - 1]);
      forall i | |StripTrailing(s)| <= i < |s| - 1 ensures IsSpace(s[i]) {
        assert s[i] == s[..|s| - 1][i];
      }
    }
  }

  /** `s.strip()`: the slice of `s` between its leading and its trailing
      whitespace. */
  function Strip(s: string): (r: string)
    ensures |r| <= |s|
    ensures r == [] || (!IsSpace(r[0]) && !IsSpace(r[|r| - 1]))
  {
    StripTrailing(StripLeading(s))
  }

  /** The stripped string is the slice of `s` that starts after the leading
      whitespace. */
  lemma StripSlice(s: string)
    ensures var i := |s| - |StripLeading(s)|;
            i + |Strip(s)| <= |s| && Strip(s) == s[i..i + |Strip(s)|]
  {
    PrefixOfSuffix(s, StripLeading(s), Strip(s));
  }

  /** A prefix of a suffix is an inner slice. */
  lemma PrefixOfSuffix(s: string, suffix: string, r: string)
    requires |suffix| <= |s| && suffix == s[|s| - |suffix|..]
    requires |r| <= |suffix| && r == suffix[..|r|]
    ensures r == s[|s| - |suffix|..|s| - |suffix| + |r|]
  {
    var i := |s| - |suffix|;
    forall k | 0 <= k < |r| ensures r[k] == s[i + k] {
      assert r[k] == suffix[k];
    }
  }

  /** Only whitespace surrounds the stripped slice. */
  lemma StripRemovesOnlySpace(s: string)
    ensures var i := |s| - |StripLeading(s)|;
            && i + |Strip(s)| <= |s|
            && (forall k :: 0 <= k < i ==> IsSpace(s[k]))
            && (forall k :: i + |Strip(s)| <= k < |s| ==> IsSpace(s[k]))
  {
    var left := StripLeading(s);
    var r := StripTrailing(left);
    var i := |s| - |left|;
    StripLeadingSpaces(s);
    StripTrailingSpaces(left);
    assert left == s[i..];
    forall k | i + |r| <= k < |s| ensures IsSpace(s[k]) {
      assert s[k] == left[k - i];
    }
  }

  /** A string strips to nothing exactly when all its characters are
      whitespace. */
  lemma StripEmpty(s: string)
    ensures Strip(s) == [] <==> forall k :: 0 <= k < |s| ==> IsSpace(s[k])
  {
    StripRemovesOnlySpace(s);
    StripSlice(s);
    if Strip(s) != [] {
      assert Strip(s)[0] == s[|s| - |StripLeading(s)|];
    }
  }

  /** A slice of a prefix is the same slice of the whole string. */
  lemma SliceOfPrefix(s: string, t: string, i: nat, j: nat)
    requires |t| <= |s| && t == s[..|t|] && i <= j <= |t|
    ensures t[i..j] == s[i..j]
  {
  }

  /** Stripping a string that neither starts nor ends with whitespace leaves it as it is. */
  lemma StripIdentity(s: string)
    requires s == [] || (!IsSpace(s[0]) && !IsSpace(s[|s| - 1]))
    ensures Strip(s) == s
  {
  }

  /** Every character of `s` is a decimal digit. */
  predicate AllDigits(s: string) {
    forall i :: 0 <= i < |s| ==> '0' <= s[i] <= '9'
  }

  /** The value of a string of decimal digits, read left to right. */
  function DigitsValue(s: string): nat
    requires AllDigits(s)
  {
    if s == [] then 0 else 10 * DigitsValue(s[..|s| - 1]) + (s[|s| - 1] as int - '0' as int)
  }

  /** A decimal numeral: digits, with an optional leading minus sign. */
  predicate IsNumeral(s: string) {
    if s != [] && s[0] == '-' then |s| >= 2 && AllDigits(s[1..]) else |s| >= 1 && AllDigits(s)
  }

  /** `int(s)` for a decimal numeral. */
  function ParseInt(s: string): int
    requires IsNumeral(s)
  {
    if s[0] == '-' then -(DigitsValue(s[1..]) as int) else DigitsValue(s)
  }

  /** The decimal digits of `n`, as `str(n)` writes them: they read back as
      `n`, and only zero itself starts with '0'. */
  function NatToString(n: nat): (r: string)
    ensures |r| >= 1 && AllDigits(r)
    ensures DigitsValue(r) == n
    ensures r[0] == '0' ==> n == 0
  {
    var d := ('0' as int + n % 10) as char;
    if n < 10 then [d]
    else
      var r := NatToString(n / 10) + [d];
      assert r[..|r| - 1] == NatToString(n / 10);
      r
  }

  /** `str(i)` for a Python `int`: a minus sign before the digits when
      negative.  The numeral reads back as `i`. */
  function IntToString(i: int): (r: string)
    ensures IsNumeral(r)
    ensures ParseInt(r) == i
    ensures (r[0] == '-') <==> i < 0
  {
    if i < 0 then
      var r := "-" + NatToString(-i);
      assert r[1..] == NatToString(-i);
      r
    else NatToString(i)
  }

  /** Different integers are written differently. */
  lemma IntToStringInjective(a: int, b: int)
    requires IntToString(a) == IntToString(b)
    ensures a == b
  {
  }

  /** `a` can be obtained from `b` by deleting characters. */
  predicate IsSubsequence(a: string, b: string)
    decreases |b|
  {
    a == [] || (b != [] && ((a[0] == b[0] && IsSubsequence(a[1..], b[1..])) || IsSubsequence(a, b[1..])))
  }

  lemma {:induction false} SubsequenceTransitive(a: string, b: string, c: string)
    requires IsSubsequence(a, b) && IsSubsequence(b, c)
    ensures IsSubsequence(a, c)
    decreases |c|
  {
    if a == [] {
    } else if IsSubsequence(b, c[1..]) {
      SubsequenceTransitive(a, b, c[1..]);
    } else {
      assert b[0] == c[0] && IsSubsequence(b[1..], c[1..]);
      if a[0] == b[0] && IsSubsequence(a[1..], b[1..]) {
        SubsequenceTransitive(a[1..], b[1..], c[1..]);
      } else {
        SubsequenceTransitive(a, b[1..], c[1..]);
      }
    }
  }

  lemma {:induction false} SubsequenceReflexive(s: string)
    ensures IsSubsequence(s, s)
  {
    if s != [] {
      SubsequenceReflexive(s[1..]);
    }
  }

  /** Every slice of a string is a subsequence of it. */
  lemma {:induction false} SliceIsSubsequence(s: string, i: nat, j: nat)
    requires i <= j <= |s|
    ensures IsSubsequence(s[i..j], s)
    decreases |s|
  {
    if i == j {
    } else if 0 < i {
      SliceIsSubsequence(s[1..], i - 1, j - 1);
      assert s[1..][i - 1..j - 1] == s[i..j];
      SkipFirst(s[i..j], s);
    } else {
      SliceIsSubsequence(s[1..], 0, j - 1);
      var a := s[0..j];
      assert a[0] == s[0] && a[1..] == s[1..][0..j - 1];
    }
  }

  /** `s.split(sep)` for a one-character separator: the pieces between the
      separators, an empty piece where two separators meet or at an end. */
  function Split(s: string, sep: char): (r: seq<string>)
    ensures |r| >= 1
    ensures |r| == 1 ==> r[0] == s
  {
    if s == [] then [""] else ConsPiece(s[0], Split(s[1..], sep), sep)
  }

  /** The pieces of `[c] + t`, from the pieces `rest` of `t`: a separator
      starts a new empty piece, any other character joins the first piece. */
  function ConsPiece(c: char, rest: seq<string>, sep: char): seq<string>
    requires |rest| >= 1
  {
    if c == sep then [""] + rest else [[c] + rest[0]] + rest[1..]
  }

  /** No piece of a split holds the separator, and the split has a single
      piece exactly when the string has no separator. */
  lemma {:induction false} SplitSeparators(s: string, sep: char)
    ensures forall i :: 0 <= i < |Split(s, sep)| ==> sep !in Split(s, sep)[i]
    ensures |Split(s, sep)| == 1 <==> sep !in s
  {
    if s != [] {
      SplitSeparators(s[1..], sep);
      HeadTail(s);
      var rest := Split(s[1..], sep);
      if s[0] != sep {
        assert sep !in [s[0]] + rest[0];
      }
    }
  }

  /** The first piece of a split is the text before the first separator. */
  lemma {:induction false} SplitFirst(s: string, sep: char)
    ensures var first := Split(s, sep)[0];
            StartsWith(s, first) && (|first| == |s| || s[|first|] == sep)
  {
    if s != [] && s[0] != sep {
      SplitFirst(s[1..], sep);
      var rest := Split(s[1..], sep)[0];
      assert Split(s, sep)[0] == [s[0]] + rest;
      assert s == [s[0]] + s[1..];
    }
  }

  /** The last piece of a split is the text after the last separator. */
  lemma {:induction false} SplitLast(s: string, sep: char)
    ensures var r := Split(s, sep);
            var last := r[|r| - 1];
            |last| <= |s| && last == s[|s| - |last|..] && (|last| == |s| || s[|s| - |last| - 1] == sep)
  {
    if s != [] {
      SplitLast(s[1..], sep);
      SplitLastStep(s, sep);
      var rest := Split(s[1..], sep);
      if s[0] == sep || |rest| != 1 {
        SplitSeparators(s[1..], sep);
        DropTail(s, |s| - 1 - |rest[|rest| - 1]|);
      }
    }
  }

  /** The last piece of a split is the whole string when the string has no
      separator, and otherwise the last piece of the split of its tail. */
  lemma SplitLastStep(s: string, sep: char)
    requires s != []
    ensures var r := Split(s, sep);
            var rest := Split(s[1..], sep);
            r[|r| - 1] == if s[0] != sep && |rest| == 1 then s else rest[|rest| - 1]
  {
    HeadTail(s);
    SplitUnfold(s, sep);
    LastPieceStep(s[0], s[1..], Split(s[1..], sep), sep);
  }

  /** A non-empty string is its first character followed by the rest. */
  lemma HeadTail(s: string)
    requires s != []
    ensures [s[0]] + s[1..] == s
  {
  }

  /** The last piece after putting a character in front of the pieces of `t`. */
  lemma LastPieceStep(c: char, t: string, rest: seq<string>, sep: char)
    requires |rest| >= 1 && (|rest| == 1 ==> rest[0] == t)
    ensures var r := ConsPiece(c, rest, sep);
            r[|r| - 1] == if c != sep && |rest| == 1 then [c] + t else rest[|rest| - 1]
  {
    if c == sep {
      LastOfAppend([""], rest);
    } else if |rest| > 1 {
      LastOfAppend([[c] + rest[0]], rest[1..]);
    }
  }

  /** The last element of a concatenation is the last of its second part. */
  lemma LastOfAppend(a: seq<string>, b: seq<string>)
    requires b != []
    ensures (a + b)[|a + b| - 1] == b[|b| - 1]
  {
  }

  /** Dropping `k` characters after the first is dropping `k + 1`. */
  lemma DropTail(s: string, k: nat)
    requires s != [] && k <= |s| - 1
    ensures s[1..][k..] == s[k + 1..]
  {
  }

  /** `sep.join(pieces)`. */
  function Join(pieces: seq<string>, sep: char): string
    requires |pieces| >= 1
  {
    if |pieces| == 1 then pieces[0] else pieces[0] + [sep] + Join(pieces[1..], sep)
  }

  /** Joining a piece in front of other pieces puts a separator between. */
  lemma JoinCons(x: string, rest: seq<string>, sep: char)
    requires |rest| >= 1
    ensures Join([x] + rest, sep) == x + [sep] + Join(rest, sep)
  {
    assert ([x] + rest)[1..] == rest;
  }

  /** Joining the pieces of a split gives back the string. */
  lemma {:induction false} JoinSplit(s: string, sep: char)
    ensures Join(Split(s, sep), sep) == s
  {
    if s != [] {
      JoinSplit(s[1..], sep);
      SplitUnfold(s, sep);
      JoinSplitStep(s[0], s[1..], Split(s[1..], sep), sep);
      assert [s[0]] + s[1..] == s;
    }
  }

  /** One step of the recursion of `Split`. */
  lemma SplitUnfold(s: string, sep: char)
    requires s != []
    ensures Split(s, sep) == ConsPiece(s[0], Split(s[1..], sep), sep)
  {
  }

  /** One step of `JoinSplit`: putting a character in front. */
  lemma JoinSplitStep(c: char, t: string, rest: seq<string>, sep: char)
    requires |rest| >= 1 && Join(rest, sep) == t
    ensures Join(ConsPiece(c, rest, sep), sep) == [c] + t
  {
    if c == sep {
      JoinCons("", rest, sep);
    } else if |rest| > 1 {
      JoinCons([c] + rest[0], rest[1..], sep);
      JoinCons(rest[0], rest[1..], sep);
      assert rest == [rest[0]] + rest[1..];
    }
  }

  /** A piece without separators, a separator, then more text: the piece
      comes first in the split. */
  lemma {:induction false} SplitAfterPiece(a: string, b: string, sep: char)
    requires sep !in a
    ensures Split(a + [sep] + b, sep) == [a] + Split(b, sep)
  {
    if a == [] {
      assert a + [sep] + b == [sep] + b;
      assert ([sep] + b)[1..] == b;
    } else {
      var s := a + [sep] + b;
      assert s[1..] == a[1..] + [sep] + b;
      SplitAfterPiece(a[1..], b, sep);
      assert [s[0]] + a[1..] == a;
    }
  }

  /** Splitting the join of separator-free pieces gives back the pieces. */
  lemma {:induction false} SplitJoin(pieces: seq<string>, sep: char)
    requires |pieces| >= 1
    requires forall i :: 0 <= i < |pieces| ==> sep !in pieces[i]
    ensures Split(Join(pieces, sep), sep) == pieces
  {
    if |pieces| == 1 {
      SplitSeparators(pieces[0], sep);
    } else {
      SplitJoin(pieces[1..], sep);
      SplitAfterPiece(pieces[0], Join(pieces[1..], sep), sep);
      assert [pieces[0]] + pieces[1..] == pieces;
    }
  }

  /** Every character of `chars` removed, the others kept in order: both
      `s.replace(c, "")` for a one-character `c` and `re.sub("[...]", "", s)`
      for a character class. */
  function RemoveChars(s: string, chars: set<char>): (r: string)
    ensures |r| <= |s|
  {
    if s == [] then []
    else (if s[0] in chars then [] else [s[0]]) + RemoveChars(s[1..], chars)
  }

  /** A character is left exactly when it is in the input and not in `chars`. */
  lemma {:induction false} RemoveCharsMembers(s: string, chars: set<char>)
    ensures forall c :: c in RemoveChars(s, chars) <==> c in s && c !in chars
  {
    if s != [] {
      RemoveCharsMembers(s[1..], chars);
      assert s == [s[0]] + s[1..];
    }
  }

  /** Removal works piece by piece: removing from a concatenation is
      concatenating the removals.  With `RemoveCharsSingle` this fixes the
      result, order and multiplicity included. */
  lemma {:induction false} RemoveCharsAppend(a: string, b: string, chars: set<char>)
    ensures RemoveChars(a + b, chars) == RemoveChars(a, chars) + RemoveChars(b, chars)
  {
    if a == [] {
      assert a + b == b;
    } else {
      var t := a[1..];
      assert a == [a[0]] + t && a + b == [a[0]] + (t + b);
      RemoveCharsCons(a[0], t + b, chars);
      RemoveCharsCons(a[0], t, chars);
      RemoveCharsAppend(t, b, chars);
    }
  }

  /** Removing from a string with a known first character. */
  lemma RemoveCharsCons(x: char, t: string, chars: set<char>)
    ensures RemoveChars([x] + t, chars) == (if x in chars then [] else [x]) + RemoveChars(t, chars)
  {
    assert ([x] + t)[1..] == t;
  }

  /** A single character is dropped exactly when it is in `chars`. */
  lemma RemoveCharsSingle(x: char, chars: set<char>)
    ensures RemoveChars([x], chars) == if x in chars then [] else [x]
  {
    assert [x][1..] == [];
  }

  /** Each character outside `chars` occurs as often as in the input; the
      characters of `chars` not at all. */
  lemma {:induction false} RemoveCharsCount(s: string, chars: set<char>, x: char)
    ensures multiset(RemoveChars(s, chars))[x] == if x in chars then 0 else multiset(s)[x]
  {
    if s != [] {
      RemoveCharsCount(s[1..], chars, x);
      assert s == [s[0]] + s[1..];
    }
  }

  lemma {:induction false} RemoveCharsIsSubsequence(s: string, chars: set<char>)
    ensures IsSubsequence(RemoveChars(s, chars), s)
  {
    if s != [] {
      RemoveCharsIsSubsequence(s[1..], chars);
      var r := RemoveChars(s, chars);
      if s[0] in chars {
        assert r == RemoveChars(s[1..], chars);
        SkipFirst(r, s);
      } else {
        assert r == [s[0]] + RemoveChars(s[1..], chars);
        assert r[1..] == RemoveChars(s[1..], chars);
      }
    }
  }

  /** A subsequence of the tail is a subsequence of the whole. */
  lemma SkipFirst(a: string, s: string)
    requires s != [] && IsSubsequence(a, s[1..])
    ensures IsSubsequence(a, s)
  {
  }

  /** Removing characters that do not occur changes nothing. */
  lemma {:induction false} RemoveCharsAbsent(s: string, chars: set<char>)
    requires forall c :: c in s ==> c !in chars
    ensures RemoveChars(s, chars) == s
  {
    if s != [] {
      RemoveCharsAbsent(s[1..], chars);
      assert [s[0]] + s[1..] == s;
    }
  }
}

=== FILE: video_processor.dfy ===
/** The two string functions of the video processor: the line filter of
    `load_links_from_file` and `sanitize_filename`. */
module VideoProcessor {
  import opened Wrappers
  import opened Text

  /** A line of the links file is kept when it is not blank and does not
      itself start with '#'; a '#' after leading whitespace does not count. */
  function KeepsLine(line: string): (r: bool)
    ensures r <==> (exists k :: 0 <= k < |line| && !IsSpace(line[k])) && (line == [] || line[0] != '#')
  {
    StripEmpty(line);
    Strip(line) != "" && !StartsWith(line, "#")
  }

  /** `load_links_from_file`: the stripped kept lines, in file order.  A file
      that does not exist (`None`) gives no links. */
  function LoadLinks(file: Option<seq<string>>): (links: seq<string>)
    ensures file.None? ==> links == []
  {
    match file
    case None => []
    case Some(lines) => KeptLinks(lines)
  }

  function KeptLinks(lines: seq<string>): (links: seq<string>)
    ensures |links| <= |lines|
  {
    if lines == [] then []
    else (if KeepsLine(lines[0]) then [Strip(lines[0])] else []) + KeptLinks(lines[1..])
  }

  /** The filter works line by line: the links of two consecutive parts of
      the file are the links of the first part followed by those of the
      second. */
  lemma {:induction false} KeptLinksAppend(a: seq<string>, b: seq<string>)
    ensures KeptLinks(a + b) == KeptLinks(a) + KeptLinks(b)
  {
    if a == [] {
      assert a + b == b;
    } else {
      assert (a + b)[0] == a[0] && (a + b)[1..] == a[1..] + b;
      KeptLinksAppend(a[1..], b);
      var head := if KeepsLine(a[0]) then [Strip(a[0])] else [];
      assert KeptLinks(a + b) == head + (KeptLinks(a[1..]) + KeptLinks(b));
    }
  }

  /** A single line gives its stripped form exactly when it is kept. */
  lemma KeptLinksSingle(line: string)
    ensures KeptLinks([line]) == if KeepsLine(line) then [Strip(line)] else []
  {
    var none: seq<string> := [];
    assert [line][1..] == none;
  }

  /** Each link is the stripped form of a kept line of the file, and each
      kept line contributes its stripped form. */
  lemma {:induction false} LoadLinksMembers(lines: seq<string>, x: string)
    ensures x in LoadLinks(Some(lines)) <==> exists i :: 0 <= i < |lines| && LinkOf(lines[i], x)
  {
    if lines != [] {
      LoadLinksMembers(lines[1..], x);
      if x in KeptLinks(lines[1..]) {
        var i :| 0 <= i < |lines[1..]| && LinkOf(lines[1..][i], x);
        assert lines[i + 1] == lines[1..][i];
      }
      if exists i :: 0 <= i < |lines| && LinkOf(lines[i], x) {
        var i :| 0 <= i < |lines| && LinkOf(lines[i], x);
        if i > 0 {
          assert lines[1..][i - 1] == lines[i];
        }
      }
    }
  }

  /** `line` is kept and gives the link `x`. */
  predicate LinkOf(line: string, x: string) {
    KeepsLine(line) && Strip(line) == x
  }

  /** Every link is non-empty and carries no surrounding whitespace. */
  lemma {:induction false} LinksAreStripped(lines: seq<string>)
    ensures forall link :: link in KeptLinks(lines) ==> link != "" && Strip(link) == link
  {
    if lines != [] {
      LinksAreStripped(lines[1..]);
      if KeepsLine(lines[0]) {
        StripIdentity(Strip(lines[0]));
      }
    }
  }

  /** A commented line is dropped, but one whose '#' follows whitespace is
      kept, without that whitespace. */
  lemma CommentNeedsFirstColumn()
    ensures LoadLinks(Some(["#skip\n", "  #x\n"])) == ["#x"]
  {
    var lines := ["#skip\n", "  #x\n"];
    assert StartsWith(lines[0], "#");
    IndentedCommentLine();
    KeptLinksSingle(lines[1]);
    assert lines[1..] == [lines[1]];
  }

  /** The line "  #x" is kept and gives "#x". */
  lemma IndentedCommentLine()
    ensures KeepsLine("  #x\n") && Strip("  #x\n") == "#x"
  {
    IndentedLeading();
    CommentTrailing();
    assert !StartsWith("  #x\n", "#") by {
      assert "  #x\n"[0] == ' ';
    }
  }

  lemma IndentedLeading()
    ensures StripLeading("  #x\n") == "#x\n"
  {
    assert StripLeading("#x\n") == "#x\n";
    assert StripLeading(" #x\n") == "#x\n" by {
      assert " #x\n"[1..] == "#x\n";
    }
    assert "  #x\n"[1..] == " #x\n";
  }

  lemma CommentTrailing()
    ensures StripTrailing("#x\n") == "#x"
  {
    assert "#x\n"[..2] == "#x";
  }

  /** The characters removed by the first substitution of `sanitize_filename`. */
  const Forbidden: set<char> := {'<', '>', ':', '"', '/', '\\', '|', '?', '*'}

  /** The characters removed by the second substitution. */
  const Marks: set<char> := {'#', '@'}

  /** The longest filename kept before stripping. */
  const MaxLength: nat := 100

  /** `s.replace(pattern, "")`: occurrences removed as a left-to-right scan
      finds them, each search resuming after the removed occurrence. */
  function RemoveOccurrences(s: string, pattern: string): (r: string)
    requires pattern != []
    ensures forall c :: c in r ==> c in s
    decreases |s|
  {
    if s == [] then []
    else if StartsWith(s, pattern) then RemoveOccurrences(s[|pattern|..], pattern)
    else [s[0]] + RemoveOccurrences(s[1..], pattern)
  }

  /** `sanitize_filename`: at most 100 characters, with no leading or
      trailing whitespace. */
  function SanitizeFilename(filename: string): (r: string)
    ensures |r| <= MaxLength
    ensures r == [] || (!IsSpace(r[0]) && !IsSpace(r[|r| - 1]))
  {
    var t := Truncate(Cleaned(filename));
    assert |Strip(t)| <= |t| <= MaxLength;
    Strip(t)
  }

  /** The three removals of `sanitize_filename`, in order. */
  function Cleaned(filename: string): string {
    RemoveOccurrences(RemoveChars(RemoveChars(filename, Forbidden), Marks), "...")
  }

  /** The first 100 characters. */
  function Truncate(s: string): (r: string)
    ensures |r| <= MaxLength && |r| <= |s| && r == s[..|r|]
    ensures |s| <= MaxLength ==> r == s
  {
    if |s| > MaxLength then s[..MaxLength] else s
  }

  /** No three consecutive dots. */
  predicate NoTripleDot(s: string) {
    forall i :: 0 <= i && i + 2 < |s| ==> !(s[i] == '.' && s[i + 1] == '.' && s[i + 2] == '.')
  }

  /** The result of the removal starts with the first character of its
      input when that character does not begin an occurrence. */
  lemma RemoveDotsHead(s: string)
    requires s != [] && s[0] != '.'
    ensures RemoveOccurrences(s, "...") != [] && RemoveOccurrences(s, "...")[0] == s[0]
  {
    assert !StartsWith(s, "...");
  }

  /** Removing "..." left to right leaves no "...": a dot is kept only when
      fewer than three dots start at it, and the character that ends its run
      is kept too. */
  lemma {:induction false} RemoveDotsLeavesNone(s: string)
    ensures NoTripleDot(RemoveOccurrences(s, "..."))
    decreases |s|
  {
    if s != [] {
      if StartsWith(s, "...") {
        RemoveDotsLeavesNone(s[3..]);
      } else {
        var t := s[1..];
        RemoveDotsLeavesNone(t);
        var rest := RemoveOccurrences(t, "...");
        var r := RemoveOccurrences(s, "...");
        assert r == [s[0]] + rest;
        if s[0] == '.' && t != [] {
          if t[0] != '.' {
            RemoveDotsHead(t);
          } else {
            assert |t| < 2 || t[1] != '.';
            assert !StartsWith(t, "...");
            assert rest == [t[0]] + RemoveOccurrences(t[1..], "...");
            if |t| >= 2 {
              RemoveDotsHead(t[1..]);
            }
          }
        }
        forall i | 0 <= i && i + 2 < |r| ensures !(r[i] == '.' && r[i + 1] == '.' && r[i + 2] == '.') {
          if i > 0 {
            assert r[i] == rest[i - 1] && r[i + 1] == rest[i] && r[i + 2] == rest[i + 1];
          }
        }
      }
    }
  }

  /** A slice of a string without three consecutive dots has none either. */
  lemma SliceKeepsNoTripleDot(s: string, r: string, i: nat)
    requires NoTripleDot(s) && i + |r| <= |s| && r == s[i..i + |r|]
    ensures NoTripleDot(r)
  {
    forall k | 0 <= k && k + 2 < |r| ensures !(r[k] == '.' && r[k + 1] == '.' && r[k + 2] == '.') {
      assert r[k] == s[i + k] && r[k + 1] == s[i + k + 1] && r[k + 2] == s[i + k + 2];
    }
  }

  /** `NoTripleDot` is the absence of the substring "...". */
  lemma NoTripleDotMeansNoDots(s: string)
    requires NoTripleDot(s)
    ensures !Contains(s, "...")
  {
    forall i | 0 <= i <= |s| - 3 ensures !OccursAt(s, "...", i) {
      assert s[i..i + 3][0] == s[i] && s[i..i + 3][1] == s[i + 1] && s[i..i + 3][2] == s[i + 2];
    }
  }

  /** The characters of a slice are characters of the string. */
  lemma SliceChars(s: string, i: nat, j: nat)
    requires i <= j <= |s|
    ensures forall c :: c in s[i..j] ==> c in s
  {
    forall c | c in s[i..j] ensures c in s {
      var k :| 0 <= k < j - i && s[i..j][k] == c;
      assert s[i + k] == c;
    }
  }

  /** The cleaned name holds none of the removed characters and no "...". */
  lemma CleanedContent(filename: string)
    ensures var r := Cleaned(filename);
            (forall c :: c in r ==> c !in Forbidden && c !in Marks) && NoTripleDot(r)
  {
    RemoveCharsMembers(filename, Forbidden);
    RemoveCharsMembers(RemoveChars(filename, Forbidden), Marks);
    RemoveDotsLeavesNone(RemoveChars(RemoveChars(filename, Forbidden), Marks));
  }

  /** Truncating and stripping take a slice of `s`. */
  lemma SliceStages(s: string) returns (i: nat)
    ensures i + |Strip(Truncate(s))| <= |s| && Strip(Truncate(s)) == s[i..i + |Strip(Truncate(s))|]
  {
    var t := Truncate(s);
    var r := Strip(t);
    StripSlice(t);
    i := |t| - |StripLeading(t)|;
    SliceOfPrefix(s, t, i, i + |r|);
  }

  /** Truncating and stripping keep only characters of `s`. */
  lemma SliceStagesChars(s: string)
    ensures forall c :: c in Strip(Truncate(s)) ==> c in s
  {
    var i := SliceStages(s);
    SliceChars(s, i, i + |Strip(Truncate(s))|);
  }

  /** Truncating and stripping keep the absence of three consecutive dots. */
  lemma SliceStagesNoTripleDot(s: string)
    requires NoTripleDot(s)
    ensures NoTripleDot(Strip(Truncate(s)))
  {
    var i := SliceStages(s);
    SliceKeepsNoTripleDot(s, Strip(Truncate(s)), i);
  }

  /** Truncating and stripping only delete characters. */
  lemma SliceStagesDelete(s: string)
    ensures IsSubsequence(Strip(Truncate(s)), s)
  {
    var i := SliceStages(s);
    var r := Strip(Truncate(s));
    SliceIsSubsequence(s, i, i + |r|);
  }

  /** The sanitized name holds none of the removed characters and no "...". */
  lemma SanitizedContent(filename: string)
    ensures var r := SanitizeFilename(filename);
            (forall c :: c in r ==> c !in Forbidden && c !in Marks) && NoTripleDot(r) && !Contains(r, "...")
  {
    CleanedContent(filename);
    SliceStagesChars(Cleaned(filename));
    SliceStagesNoTripleDot(Cleaned(filename));
    NoTripleDotMeansNoDots(SanitizeFilename(filename));
  }

  lemma {:induction false} RemoveOccurrencesIsSubsequence(s: string, pattern: string)
    requires pattern != []
    ensures IsSubsequence(RemoveOccurrences(s, pattern), s)
    decreases |s|
  {
    if s != [] {
      var r := RemoveOccurrences(s, pattern);
      if StartsWith(s, pattern) {
        RemoveOccurrencesIsSubsequence(s[|pattern|..], pattern);
        SliceIsSubsequence(s, |pattern|, |s|);
        assert s[|pattern|..|s|] == s[|pattern|..];
        SubsequenceTransitive(r, s[|pattern|..], s);
      } else {
        RemoveOccurrencesIsSubsequence(s[1..], pattern);
        assert r[1..] == RemoveOccurrences(s[1..], pattern);
      }
    }
  }

  /** The sanitized name is what is left of the input after deleting
      characters: nothing is added or reordered. */
  lemma SanitizedIsSubsequence(filename: string)
    ensures IsSubsequence(SanitizeFilename(filename), filename)
  {
    var s1 := RemoveChars(filename, Forbidden);
    var s2 := RemoveChars(s1, Marks);
    var s3 := Cleaned(filename);
    RemoveCharsIsSubsequence(filename, Forbidden);
    RemoveCharsIsSubsequence(s1, Marks);
    RemoveOccurrencesIsSubsequence(s2, "...");
    SliceStagesDelete(s3);
    var r := SanitizeFilename(filename);
    SubsequenceTransitive(r, s3, s2);
    SubsequenceTransitive(r, s2, s1);
    SubsequenceTransitive(r, s1, filename);
  }

  /** Removing "..." from a string without three consecutive dots changes nothing. */
  lemma {:induction false} RemoveDotsAbsent(s: string)
    requires NoTripleDot(s)
    ensures RemoveOccurrences(s, "...") == s
  {
    if s != [] {
      assert !StartsWith(s, "...") by {
        if |s| >= 3 {
          assert s[..3][0] == s[0] && s[..3][1] == s[1] && s[..3][2] == s[2];
        }
      }
      SliceKeepsNoTripleDot(s, s[1..], 1);
      RemoveDotsAbsent(s[1..]);
      assert [s[0]] + s[1..] == s;
    }
  }

  /** Sanitizing a sanitized name changes nothing. */
  lemma SanitizeIdempotent(filename: string)
    ensures SanitizeFilename(SanitizeFilename(filename)) == SanitizeFilename(filename)
  {
    var r := SanitizeFilename(filename);
    SanitizedContent(filename);
    RemoveCharsAbsent(r, Forbidden);
    RemoveCharsAbsent(r, Marks);
    RemoveDotsAbsent(r);
    StripIdentity(r);
  }
}

=== FILE: wrappers.dfy ===
/** Option and Result datatypes used across the model. */
module Wrappers {

  /** A value that may be absent: Python's `None` versus a present value. */
  datatype Option<+T> = None | Some(value: T)

  /** The outcome of an operation that may raise: `Failure` carries the text
      of an exception that escapes the modelled function. */
  datatype Result<+R, +E> = Success(value: R) | Failure(error: E)
}
